=== FILE: README.md ===
# glpaper transition engine, configuration and effect embedder in Dafny

glpaper draws a wallpaper window behind all other windows and cross-fades
between the images of one directory with GLSL transition effects. This
project models three parts of it:

- **The transition engine** of the wallpaper window (`src/window.cc`). It
  chooses an effect, composes its fragment shader from the fixed template,
  falls back to `fade`, and sets the base and effect-specific uniforms. It
  lists the valid images of the directory, picks the next image without an
  immediate repeat, and promotes the pre-loaded image. It animates
  `progress` against the clock, and runs the display-time poll loop. That loop
  ends on a timeout, a "new wallpaper" command or a "reload config" command.
- **The configuration** (`src/config.cc`). It covers the defaults, the
  command-line overrides and their "set" flags, and where the config file is
  looked for. It also covers the merge rules of the initial load and of a
  reload, and the failure when no wallpaper directory is known.
- **The embedder** (`tools/embed.cc`). It turns effect files into the C++
  source that defines the effect registry. This covers the key of each file,
  the hex tokens, the wrapping at ten bytes per line, and the framing. It also
  covers the usage and missing-file failures.

## Modules

- `Wrappers`: `Option` and `Result`.
- `Configuration`: `Config`, the command line (`Cli`), the environment
  (`Env`), parsed config files, `ApplyCli` and `LoadConfig`.
- `Shaders`: template composition, effect choice, `CreateShader` with its
  `fade` fallback, and the effect-specific uniform table.
- `Catalogue`: the image catalogue, the path pick, and texture promotion.
- `Engine`: `SetupTransition`, `StartTransition`, `Progress`, `PollLoop`,
  `Reload`, one pass of the main loop (`Frame`), `Boot`, `Run`, and the
  invariant `Valid`.
- `Embed`: the embedder as a function (`Embed`) and as the program's loops
  (`EmbedProgram`, `EmitBody`), with the decoder used to state its round trip.

## How the outside world enters

The model takes everything from outside the program as a parameter:

- The environment, the set of existing paths, and the parsed config files by
  path. A path missing from the map is a file the config library cannot read.
- The directory listings, and the sets of recognised and decodable images.
- The effect registry (name to GLSL body).
- `unlinkable`: the effects whose program handle comes back zero.
- Every random draw, in `Draws`.
- The message bus, as a sequence of poll results, each paired with the clock
  reading taken after it.
- The screen size.

Time is integer milliseconds. Progress is an exact real.

## Model

| member | source | states |
|---|---|---|
| Configuration.Defaults | src/config.cc:11-15 | Before any option: colour (0.08, 0.08, 0.08, 1), a 3000 ms transition, 120 minutes = 7 200 000 ms of display, no "set" flag, no directory, no transitions. |
| Configuration.ResolveConfigPath | src/config.cc:17-38 | The config path is an existing `--config` path, else `$XDG_CONFIG_HOME/glpaper.conf`, else `$HOME/.config/glpaper.conf`. It is empty exactly when none of the three is available. |
| Configuration.HomeConsultedLast | src/config.cc:25-38 | `$HOME` has no influence once a usable `--config` path or `$XDG_CONFIG_HOME` is present. |
| Configuration.FillFromArray | src/config.cc:97-117 | The colour loop (counter from -1, break at 4) ends with `n == 3` exactly when the list has four elements. In that case it has copied them in order, agreeing with the four-value colour check. |
| Configuration.ApplyCli | src/config.cc:40-78 | The command line over the defaults, field by field. `--directory` is taken only if it exists, and `--bg-color` only with four values. The set flags are raised for colour, duration and minutes. `--minutes` gives minutes × 60 000 ms. This is the corrected reading of Finding 1. |
| Configuration.ApplyCliAsWritten | src/config.cc:73-78 | As written, construction fails exactly when `--minutes` is given (it reads the `transitions` option as an integer). Otherwise it agrees with `ApplyCli`. |
| Configuration.MinutesOptionDefect | src/config.cc:73-78 | `-m 5` is refused as written. The corrected reading gives 300 000 ms. |
| Configuration.LoadConfig | src/config.cc:83-145 | An unreadable file fails, and so does the empty path (no config location known), which the config library cannot open. Otherwise each field is taken from the file when (reload, or not set by the command line) and the file defines it. The directory must also exist, and the colour must have four elements. The "set" flags and the path are unchanged. The load fails exactly when no directory is known afterwards. |
| Configuration.NewConfig | src/config.cc:11-81 | The constructor as corrected by Finding 1: it applies the corrected `ApplyCli`, so `--minutes` does not throw (as written, any `-m` throws at `src/config.cc:76` before the initial load). It fails on an unreadable or empty resolved path. With a readable file, it succeeds exactly when an existing non-empty directory comes from the command line or from the file. On success the path is the resolved one, the set flags reflect the command line, and the directory is non-empty and exists. Each field is the command line's value when it set it, else the file's, else the default: the directory (an existing non-empty one), the four-value colour, the transition list, the transition duration and the display minutes × 60 000. |
| Configuration.DurationPrecedence | src/config.cc:67-133 | A command-line duration beats the file at start-up, and a reload hands the field to the file. |
| Configuration.ColorPrecedence | src/config.cc:48-117 | A valid command-line colour survives the initial load, and a reload takes a four-element file colour. |
| Configuration.ReloadAfterLoad | src/config.cc:83-141 | A reload after the initial load equals a reload alone: the earlier merge leaves no trace. |
| Configuration.ReloadIdempotent | src/config.cc:83-141 | A second reload from the same file changes nothing. |
| Configuration.ShortColorRejected | src/config.cc:48-61 | A three-value `--bg-color` is refused. The default colour stays, and the set flag stays lowered. |
| Shaders.Compose | src/window.cc:37-57 | The fragment source is the template prefix, the effect body, then the template suffix. Its length is the template's minus the two characters of `%s` plus the body's, so it fits the buffer of `src/window.cc:319-321`. |
| Shaders.ComposeRecoversBody | src/window.cc:319-321 | The body can be read back from the composed source, so distinct bodies give distinct sources. |
| Shaders.ChooseEffect | src/window.cc:394-397 | The effect is a member of the enabled list when that list is non-empty, and otherwise a registered effect. |
| Shaders.EveryEffectChoosable | src/window.cc:394-397 | Every enabled effect can be drawn, and with an empty list every registered one. |
| Shaders.CreateShader | src/window.cc:297-332 | Fails exactly when `fade` is missing and needed. The bound effect is the requested one exactly when it is registered and (it is `fade` or its program handle is non-zero). Otherwise it is `fade`. The fragment is the template around the registry body. A zero handle survives only for `fade`. At most two builds happen. |
| Shaders.UnknownEffectFallsBack | src/window.cc:300-317 | An unregistered name binds `fade`'s program when `fade` exists. |
| Shaders.AuxUniforms | src/window.cc:353-390 | `bgcolor` is the configured colour. `size` is (4·ratio, 4) for gridflip and (10·ratio, 10) otherwise. `dividerWidth` is 0.05/ratio. `direction` is the drawn (dx, dy) for squareswire, directionalwarp and directionalwipe; (x, 0) when x = 1 and (x, 1) otherwise for directional_easing and directional; and the drawn integer for luminance_melt. |
| Shaders.AuxUniformsAreAuxiliary | src/window.cc:353-390 | The effect uniforms never overwrite `ratio`, `progress`, `from` or `to`. |
| Shaders.AuxUniformsMatchTable | src/window.cc:353-390 | The uniforms set for each effect are exactly the declared table's entry, and none for an effect outside the table. |
| Shaders.AuxUniformsUnique | src/window.cc:353-390 | No effect sets the same uniform twice, so each effect uniform keeps the one value it is set to. |
| Shaders.DirectionsInRange | src/window.cc:374-389 | With draws from the program's ranges, every `direction` is a 2-vector in [-1, 1]², or the integer 0 or 1. |
| Catalogue.ValidImages | src/window.cc:420-422 | The catalogue holds exactly the listed entries that are recognised images, no more of them than the listing, and without repeats when the listing has none. |
| Catalogue.ValidImagesSplits | src/window.cc:420-422 | Filtering keeps directory order: it distributes over concatenation of listings. |
| Catalogue.LoadPaths | src/window.cc:416-426 | Loading the paths fails on an unlistable directory. It succeeds exactly when there are at least two valid images, and the catalogue is then those images. |
| Catalogue.PickPath | src/window.cc:428-440 | The pick is the sampled path, or the one after it (wrapping to the first) when the sample is the visible image. |
| Catalogue.PickAvoidsCurrent | src/window.cc:428-440 | With two or more distinct paths, the pick never equals the visible image. |
| Catalogue.EveryOtherPathPickable | src/window.cc:428-440 | Every path other than the visible one is reachable by some sample. |
| Catalogue.LoadImage | src/texture.cc:11-17 | Loading an image succeeds exactly when the image decodes. |
| Catalogue.LoadTextures | src/window.cc:334-351 | After a first load, the old "next" becomes current and the new "next" is the pick of the sample against it; loading succeeds exactly when that image decodes. On the first call, current is the plain pick of the first sample and next the pick of the second against it; loading succeeds exactly when both decode. A failure names the image that did not decode. The pair differs when paths are distinct. |
| Engine.ProgramUniforms | src/window.cc:399-405 | `ratio` is width/height as a real, `progress` is 0, every effect uniform holds the value `set_uniforms` gives it, and the uniform names are exactly these. |
| Engine.SetupTransition | src/window.cc:392-407 | Succeeds exactly when the shader for the chosen effect builds (with its `fade` fallback) and the images load; a shader failure comes first. On success the bound program is that shader, the uniforms are the program uniforms of its effect with `from` = 0 and `to` = 1, and the images are the loaded pair, which differs on a distinct catalogue. Nothing else in the engine changes. |
| Engine.StartTransition | src/window.cc:409-414 | Animates from `now`, with the end exactly the configured duration later. Nothing else changes. |
| Engine.Progress | src/window.cc:201-207 | Progress is at most 1, and at least 0 once started. For a positive duration it is 1 exactly when the duration has elapsed. A zero duration is complete at once. |
| Engine.ProgressMonotone | src/window.cc:201-204 | Progress never decreases as the clock advances. |
| Engine.PollLoop | src/window.cc:217-252 | The loop leaves at the first pass that carries a command or finds the display time up. The reason follows that pass's message. It sleeps once per empty poll up to and including that pass; if no pass ends it, it keeps polling. |
| Engine.Reload | src/window.cc:231-239 | An unreadable or directory-less config fails with the config error; otherwise an unlistable directory or fewer than two images fails with the catalogue error; otherwise the result is the transition prepared on the engine with the reloaded config and the new catalogue. |
| Engine.Frame | src/window.cc:193-262 | An animating pass that succeeds advances. Only a pass that completes the animation or that leaves the poll loop by "reload config" can fail. The first display pass only clears `firstDraw`. A pass still polling has seen no ending event. |
| Engine.Boot | src/window.cc:185-191 | An unlistable directory or fewer than two images fails with the catalogue error. Otherwise the result is the transition prepared on the initial engine: the given config, the listed catalogue, no images yet, not animating, and the display clock started at construction. When no listing repeats an entry and the directory is non-empty, the result is `Valid`. |
| Engine.FramePreservesValid | src/window.cc:193-267 | When no listing repeats an entry, every pass of the main loop keeps the engine invariant: two or more distinct paths, a registered shader, distinct bound images, and a non-empty directory. While animating, the end is start plus duration. |
| Engine.Run | src/window.cc:185-270 | When no listing repeats an entry, any number of passes keep the invariant. |
| Engine.RunSplits | src/window.cc:193-270 | Running two stretches of passes one after the other is running them together; an error in the first ends the run with that error. |
| Engine.RunFailsAtFirstFailingPass | src/window.cc:193-270 | A run fails exactly at the first pass whose `Frame` fails, with that pass's error: the passes before it succeed, and a failed run has such a pass. |
| Engine.AnimationCompletes | src/window.cc:199-214 | At the end of the animation the pass is exactly `setup_transition` on the engine with animating stopped and the display clock restarted: its error, or the engine it prepares, with a freshly chosen effect, program and uniforms. The image shown as "to" becomes current, so the visible image changes, and a different next image is loaded. |
| Engine.AnimationContinues | src/window.cc:199-206 | Before the end, a pass only sets `progress` to the elapsed fraction, which lies in [0, 1). |
| Engine.AnimationIgnoresCommands | src/window.cc:199-215 | While animating, the bus is not consulted. |
| Engine.NextOrTimeoutStartsPreparedTransition | src/window.cc:217-257 | Leaving the loop by "new wallpaper" or by the display timeout starts the already prepared transition. It starts at the time the loop was left, and nothing else changes. |
| Engine.ReloadStartsFreshTransition | src/window.cc:231-257 | "reload config" gives exactly the reload's error, or the reloaded and prepared engine with its transition started at the exit reading. It reloads with the file winning, re-lists the reloaded directory, and starts a transition of the reloaded duration. |
| Engine.ZeroDisplayLeavesAtOnce | src/window.cc:249-251 | With a zero display duration, the first poll leaves the loop and the pass starts animating. |
| Embed.Basename | tools/embed.cc:30-31 | The base name is the part of the path after the last `/`: it holds no `/` and is a suffix of the path. |
| Embed.StripExtension | tools/embed.cc:32 | The key is the prefix before the last `.`, or the whole name if it has none. |
| Embed.EffectNameIgnoresDirectory | tools/embed.cc:30-32 | The key of `dir/file` depends on the file name alone, whatever dots the directories hold. |
| Embed.HexRoundTrip | tools/embed.cc:43 | A hex token reads back as its number, and has no leading zero. |
| Embed.ByteHexLength | tools/embed.cc:43 | A byte is written with one or two hex digits. |
| Embed.BodyLineBreaks | tools/embed.cc:35-49 | The body holds one line break per completed line of ten bytes. |
| Embed.BodyRoundTrip | tools/embed.cc:38-49 | The token list decodes to exactly the emitted bytes. |
| Embed.EmittedBytes | tools/embed.cc:38-49 | The read loop emits the file's bytes in order, then one more value. |
| Embed.Entries | tools/embed.cc:19-51 | Output already written is never taken back, including by a failure part-way. |
| Embed.Embed | tools/embed.cc:5-55 | The output path is the last argument. Fewer than two paths fails and leaves the output empty. Otherwise it succeeds exactly when every input opens. A success starts with the header and ends with the footer. |
| Embed.EntriesSucceedIffReadable | tools/embed.cc:19-27 | The entries succeed exactly when every input can be opened. |
| Embed.EntriesEndWithFooter | tools/embed.cc:52 | A successful output ends with the footer. |
| Embed.EntriesInArgumentOrder | tools/embed.cc:19-52 | With every input readable, the loop appends the entries in argument order and then the footer. The entries are checked against a definition without an accumulator. |
| Embed.EmbedOutputLayout | tools/embed.cc:15-52 | With every input readable, the output is exactly the header, the entries in argument order, and the footer. |
| Embed.EmitBody | tools/embed.cc:35-49 | The read loop with its line counter produces the body. |
| Embed.EmbedProgram | tools/embed.cc:5-55 | The program's loops produce exactly the status and the text of `Embed`. |
| Embed.CString | src/window.cc:302 | The renderer's read of an array stops before the first zero. It runs off the array when the array holds none. |
| Embed.ReadLoopLeavesTextUnterminated | tools/embed.cc:38-49 | As written, a text file embeds as its bytes plus a non-zero value. Its C-string read then finds no terminator. |
| Embed.TerminatedEntryRoundTrip | tools/embed.cc:38-49 | With a zero after the contents, the array decodes to the file plus its terminator, and the renderer reads back exactly the file. |

## Left out

- The X11 window, GLX context, vertex buffer and draw calls, and the `Shader` and `Texture` GL objects: only their outcomes are modelled.
- Shader compilation: whether a program builds is the parameter `unlinkable`.
- The D-Bus connection: a command is a `PollEvent`, and the 100 ms sleep is only counted.
- Command-line parsing and the config library's parsing: both enter as parsed values. A config value of the wrong type is not modelled.
- Integer widths: durations are unbounded integers, so minutes × 60 000 does not overflow as a 32-bit or 64-bit count could.
- Randomness: every draw is a parameter. A sample of the enabled list and the image samples are reduced modulo the list's length.
- Engine.Progress: computes an exact quotient of integer milliseconds rather than a single-precision quotient of float seconds. A negative duration, reachable from the command line, is covered only by `t < 1`.
- Engine.Frame: uses one clock reading per pass; the program reads the clock again for the progress and for the restart.
- Engine.Frame: starts a transition at the clock reading of the poll that ended the loop, not after the time a reload takes.
- Shaders.AuxUniforms: `dividerWidth` is kept as the unevaluated quotient `0.05 / ratio`. With an integer ratio of 0 (a screen taller than wide) it is a float division by zero.
- Shaders.Compose: the template is given already split at its `%s`. There is no proof that the template holds no other `%` directive.
- Shaders.CreateShader: a `fade` program whose handle is zero is kept, as the code does. The program has no further error path there.
- Memory that is never freed (the embedded arrays, unreleased bus messages) is not modelled.
- Logging: the spdlog messages for a refused colour, a fallback to `fade` and a missing directory are not modelled; only the state changes around them are.
- Embed.Embed: the output path is truncated (`tools/embed.cc:7`) before any input is read, so an output path equal to an input empties that input; the model's fixed `files` map cannot show this.
- Engine.Run: uses one `World` for every pass, while the program reads the file system again on each reload.
- Embed.EmittedBytes: one value `trailer` stands for the indeterminate byte of every file, where the program may read a different one per file.

## Findings

| source | as written | input that shows it | evidently intended | confidence | as-written member | corrected member |
|---|---|---|---|---|---|---|
| src/config.cc:73-78 | `--minutes` reads the `transitions` option as an integer, which raises whether that option is absent or holds names | `glpaper -m 5` | read the `minutes` option, giving 300 000 ms | high, not executed | Configuration.ApplyCliAsWritten | Configuration.ApplyCli |
| tools/embed.cc:38-49 | the loop tests end-of-file before reading, so each array gets one extra indeterminate value and no guaranteed terminator, while `src/window.cc:302` reads it as a C string | any non-empty effect file, such as one ending in a newline: the last `in.get(c)` fails and leaves the fresh local `c` (`tools/embed.cc:40`) indeterminate, so the extra value is not guaranteed to be zero (it is non-zero whenever the slot still holds the newline) | each array holds the file's bytes followed by a zero terminator | medium, not executed | Embed.ReadLoopLeavesTextUnterminated | Embed.TerminatedEntryRoundTrip |

=== FILE: catalogue.dfy ===
/** The wallpaper catalogue and the pair of images bound for a transition:
    listing the valid images of a directory, picking the next image without an
    immediate repeat, and promoting the pre-loaded image to the visible one.

    The file system enters as values: `listings` maps each readable directory
    to its entries (full paths, in iteration order), `images` is the set of
    paths the image library recognises, and `loadable` the set of paths it can
    decode into pixels. */
module Catalogue {
  import opened Wrappers

  datatype CatalogueError =
    | UnreadableDirectory(dir: string)
    | TooFewImages(count: nat)
    | ImageLoadFailed(path: string)

  /** A sequence without repeated elements (directory entries are unique). */
  predicate Distinct(s: seq<string>) {
    forall i, j :: 0 <= i < j < |s| ==> s[i] != s[j]
  }

  /** The entries that are valid images, in their original order. */
  function ValidImages(entries: seq<string>, images: set<string>): (r: seq<string>)
    ensures |r| <= |entries|
    ensures forall p :: p in r <==> p in entries && p in images
    ensures Distinct(entries) ==> Distinct(r)
  {
    if entries == [] then []
    else
      var rest := ValidImages(entries[1..], images);
      assert forall p :: p in entries[1..] ==> p in entries;
      if entries[0] in images then [entries[0]] + rest else rest
  }

  /** Filtering keeps directory order: the images of a listing split anywhere
      are the images of the first part followed by those of the second. */
  lemma {:induction false} ValidImagesSplits(a: seq<string>, b: seq<string>, images: set<string>)
    ensures ValidImages(a + b, images) == ValidImages(a, images) + ValidImages(b, images)
    decreases |a|
  {
    if a == [] {
      assert a + b == b;
    } else {
      assert (a + b)[0] == a[0];
      assert (a + b)[1..] == a[1..] + b;
      ValidImagesSplits(a[1..], b, images);
    }
  }

  /** `load_paths`: replace the catalogue by the valid images of `dir`; fewer
      than two is an error, as is a directory that cannot be listed. */
  function LoadPaths(dir: string, listings: map<string, seq<string>>, images: set<string>)
    : (r: Result<seq<string>, CatalogueError>)
    ensures dir !in listings ==> r == Failure(UnreadableDirectory(dir))
    ensures dir in listings ==>
              (r.Success? <==> |ValidImages(listings[dir], images)| >= 2)
    ensures r.Success? ==> r.value == ValidImages(listings[dir], images) && |r.value| >= 2
    ensures r.Success? ==> forall p :: p in r.value <==> p in listings[dir] && p in images
  {
    if dir !in listings then Failure(UnreadableDirectory(dir))
    else
      var paths := ValidImages(listings[dir], images);
      if |paths| < 2 then Failure(TooFewImages(|paths|)) else Success(paths)
  }

  /** `get_random_texture_path`: the sampled path `paths[k]`, unless it is the
      visible image, in which case the path after it, wrapping to the first. */
  function PickPath(paths: seq<string>, current: Option<string>, k: nat): (p: string)
    requires k < |paths|
    ensures p in paths
    ensures current.Some? && paths[k] == current.value ==> p == paths[(k + 1) % |paths|]
    ensures !(current.Some? && paths[k] == current.value) ==> p == paths[k]
  {
    if current.Some? && paths[k] == current.value then
      if k + 1 == |paths| then paths[0] else paths[k + 1]
    else paths[k]
  }

  /** No immediate repeat: with at least two distinct paths the pick never
      equals the visible image, whatever the sample. */
  lemma PickAvoidsCurrent(paths: seq<string>, current: string, k: nat)
    requires k < |paths| && |paths| >= 2 && Distinct(paths)
    ensures PickPath(paths, Some(current), k) != current
  {
    if paths[k] == current {
      var j := (k + 1) % |paths|;
      assert j != k;
      if j < k {
        assert paths[j] != paths[k];
      } else {
        assert paths[k] != paths[j];
      }
    }
  }

  /** Every path other than the visible one can be picked. */
  lemma EveryOtherPathPickable(paths: seq<string>, current: Option<string>, p: string)
    requires p in paths && (current.Some? ==> p != current.value)
    ensures exists k: nat :: k < |paths| && PickPath(paths, current, k) == p
  {
    var k :| 0 <= k < |paths| && paths[k] == p;
    assert PickPath(paths, current, k) == p;
  }

  /** The two images bound to texture units 0 (`from`) and 1 (`to`). */
  datatype Textures = NoTextures | Bound(current: string, next: string)

  /** Loading a texture: fails when the image cannot be decoded. */
  function LoadImage(path: string, loadable: set<string>): (r: Result<string, CatalogueError>)
    ensures r.Success? <==> path in loadable
    ensures r.Success? ==> r.value == path
  {
    if path in loadable then Success(path) else Failure(ImageLoadFailed(path))
  }

  /** `load_textures`: once images are bound, the pre-loaded next image becomes
      current and a fresh next is picked against it; on the first call the
      current image is picked and bound before the next one is picked.
      `s1` and `s2` are the raw random samples, reduced to the catalogue size. */
  function LoadTextures(paths: seq<string>, t: Textures, s1: nat, s2: nat, loadable: set<string>)
    : (r: Result<Textures, CatalogueError>)
    requires |paths| > 0
    ensures t.Bound? ==>
              var n := PickPath(paths, Some(t.next), s1 % |paths|);
              && (r.Success? <==> n in loadable)
              && (r.Success? ==> r.value == Bound(t.next, n))
              && (r.Failure? ==> r.error == ImageLoadFailed(n))
    ensures t.NoTextures? ==>
              var c := PickPath(paths, None, s1 % |paths|);
              var n := PickPath(paths, Some(c), s2 % |paths|);
              && (r.Success? <==> c in loadable && n in loadable)
              && (r.Success? ==> r.value == Bound(c, n))
              && (r.Failure? ==> r.error == ImageLoadFailed(if c in loadable then n else c))
    ensures r.Success? && |paths| >= 2 && Distinct(paths) ==> r.value.current != r.value.next
  {
    match t
    case Bound(_, next) =>
      var n := PickPath(paths, Some(next), s1 % |paths|);
      var loaded :- LoadImage(n, loadable);
      assert |paths| >= 2 && Distinct(paths) ==> loaded != next by {
        if |paths| >= 2 && Distinct(paths) {
          PickAvoidsCurrent(paths, next, s1 % |paths|);
        }
      }
      Success(Bound(next, loaded))
    case NoTextures =>
      var c := PickPath(paths, None, s1 % |paths|);
      var current :- LoadImage(c, loadable);
      var n := PickPath(paths, Some(current), s2 % |paths|);
      var loaded :- LoadImage(n, loadable);
      assert |paths| >= 2 && Distinct(paths) ==> loaded != current by {
        if |paths| >= 2 && Distinct(paths) {
          PickAvoidsCurrent(paths, current, s2 % |paths|);
        }
      }
      Success(Bound(current, loaded))
  }
}

=== FILE: configuration.dfy ===
/** The configuration snapshot of the wallpaper renderer: defaults, the
    command-line overrides with their "set" flags, resolution of the config
    file path, and the merge rules of loading and reloading that file.

    Everything the program learns from the outside enters as a value: the
    parsed command line (`Cli`), the environment (`Env`), the set of paths that
    exist on disk, and the parsed config files keyed by path (a path missing
    from that map is one the config library fails to read). */
module Configuration {
  import opened Wrappers

  /** A background colour, four components in RGBA order. */
  datatype Rgba = Rgba(r: real, g: real, b: real, a: real)

  datatype Config = Config(
    bgColor: Rgba,
    bgColorSet: bool,
    transitions: seq<string>,
    transitionDuration: int,      // milliseconds
    transitionDurationSet: bool,
    displayDuration: int,         // milliseconds
    displayDurationSet: bool,
    directory: string,
    configPath: string)

  /** The options given on the command line; `None` is an option not given. */
  datatype Cli = Cli(
    config: Option<string>,
    directory: Option<string>,
    bgColor: Option<seq<real>>,
    transitions: Option<seq<string>>,
    duration: Option<int>,
    minutes: Option<int>)

  /** The two environment variables consulted; `None` is an unset variable. */
  datatype Env = Env(xdgConfigHome: Option<string>, home: Option<string>)

  /** A parsed config file; `None` is a setting the file does not define. */
  datatype ConfigFile = ConfigFile(
    directory: Option<string>,
    bgColor: Option<seq<real>>,
    transitions: Option<seq<string>>,
    duration: Option<int>,
    minutes: Option<int>)

  datatype ConfigError =
    | UnreadableConfigFile(path: string)
    | NoWallpaperDirectory
    | BadOptionCast

  const MillisPerMinute := 60000
  const DefaultBgColor := Rgba(0.08, 0.08, 0.08, 1.0)
  const DefaultTransitionDuration := 3000
  const DefaultDisplayMinutes := 120
  const ConfigFileName := "glpaper.conf"

  /** The configuration before any option or file is applied. */
  function Defaults(): (c: Config)
    ensures c.bgColor == Rgba(0.08, 0.08, 0.08, 1.0)
    ensures c.transitionDuration == 3000
    ensures c.displayDuration == 7200000
    ensures !c.bgColorSet && !c.transitionDurationSet && !c.displayDurationSet
    ensures c.transitions == [] && c.directory == "" && c.configPath == ""
  {
    Config(DefaultBgColor, false, [], DefaultTransitionDuration, false,
           DefaultDisplayMinutes * MillisPerMinute, false, "", "")
  }

  /** Whether `--config` names a path that is used: given, non-empty, existing. */
  predicate UsableCliPath(cli: Option<string>, existing: set<string>) {
    cli.Some? && cli.value in existing && cli.value != ""
  }

  /** Where the config file is looked for: an existing `--config` path, else
      `$XDG_CONFIG_HOME/glpaper.conf`, else `$HOME/.config/glpaper.conf`, else
      nowhere (the empty path). */
  function ResolveConfigPath(cli: Option<string>, env: Env, existing: set<string>): (p: string)
    ensures UsableCliPath(cli, existing) ==> p == cli.value
    ensures p == "" <==> !UsableCliPath(cli, existing) && env.xdgConfigHome.None? && env.home.None?
    ensures !UsableCliPath(cli, existing) && env.xdgConfigHome.Some? ==>
              p == env.xdgConfigHome.value + "/" + ConfigFileName
    ensures !UsableCliPath(cli, existing) && env.xdgConfigHome.None? && env.home.Some? ==>
              p == env.home.value + "/.config/" + ConfigFileName
  {
    var fromCli := if cli.Some? && cli.value in existing then cli.value else "";
    if fromCli != "" then fromCli
    else if env.xdgConfigHome.Some? then env.xdgConfigHome.value + "/" + ConfigFileName
    else if env.home.Some? then env.home.value + "/.config/" + ConfigFileName
    else ""
  }

  /** `$HOME` only matters when neither an existing `--config` path nor
      `$XDG_CONFIG_HOME` is available. */
  lemma HomeConsultedLast(cli: Option<string>, xdg: Option<string>, h1: Option<string>, h2: Option<string>,
                          existing: set<string>)
    requires UsableCliPath(cli, existing) || xdg.Some?
    ensures ResolveConfigPath(cli, Env(xdg, h1), existing) == ResolveConfigPath(cli, Env(xdg, h2), existing)
  {
  }

  /** A colour given as a list is accepted only with exactly four values. */
  function ColorOf(values: seq<real>): (c: Option<Rgba>)
    ensures c.Some? <==> |values| == 4
    ensures c.Some? ==> c.value == Rgba(values[0], values[1], values[2], values[3])
  {
    if |values| == 4 then Some(Rgba(values[0], values[1], values[2], values[3])) else None
  }

  /** The config file's colour loop: the counter `n` starts at -1, is raised
      before each element, and the loop stops with an error once it reaches 4.
      The colour is taken only when the loop ends with `n == 3`. */
  method FillFromArray(values: seq<real>) returns (n: int, filled: seq<real>)
    ensures n == 3 <==> |values| == 4
    ensures n == 3 ==> filled == values
    ensures n == 3 ==> ColorOf(values) == Some(Rgba(filled[0], filled[1], filled[2], filled[3]))
  {
    n := -1;
    filled := [0.0, 0.0, 0.0, 0.0];
    var i := 0;
    while i < |values|
      invariant 0 <= i <= |values|
      invariant i <= 4
      invariant |filled| == 4
      invariant n == i - 1
      invariant forall k :: 0 <= k < i ==> filled[k] == values[k]
    {
      n := n + 1;
      if n >= 4 {
        break;
      }
      filled := filled[n := values[i]];
      i := i + 1;
    }
    assert n == 3 ==> |values| == 4;
    if n == 3 {
      assert filled == values;
    }
  }

  /** The command line applied on top of the defaults: `--directory` only if the
      path existing, `--bg-color` only with four values, and the "set" flags
      raised for the colour and both durations. `--minutes` here reads its own
      value; the program as written reads another option (see
      `ApplyCliAsWritten`). */
  function ApplyCli(cli: Cli, env: Env, existing: set<string>): (c: Config)
    ensures c.configPath == ResolveConfigPath(cli.config, env, existing)
    ensures c.directory == (if cli.directory.Some? && cli.directory.value in existing then cli.directory.value else "")
    ensures c.bgColorSet <==> cli.bgColor.Some? && |cli.bgColor.value| == 4
    ensures c.bgColor == (if c.bgColorSet then ColorOf(cli.bgColor.value).value else DefaultBgColor)
    ensures c.transitions == cli.transitions.GetOr([])
    ensures c.transitionDurationSet <==> cli.duration.Some?
    ensures c.transitionDuration == cli.duration.GetOr(DefaultTransitionDuration)
    ensures c.displayDurationSet <==> cli.minutes.Some?
    ensures c.displayDuration == cli.minutes.GetOr(DefaultDisplayMinutes) * MillisPerMinute
  {
    var c0 := Defaults().(configPath := ResolveConfigPath(cli.config, env, existing));
    var c1 := if cli.directory.Some? && cli.directory.value in existing
              then c0.(directory := cli.directory.value) else c0;
    var c2 := if cli.bgColor.Some? && ColorOf(cli.bgColor.value).Some?
              then c1.(bgColor := ColorOf(cli.bgColor.value).value, bgColorSet := true) else c1;
    var c3 := if cli.transitions.Some? then c2.(transitions := cli.transitions.value) else c2;
    var c4 := if cli.duration.Some?
              then c3.(transitionDuration := cli.duration.value, transitionDurationSet := true) else c3;
    if cli.minutes.Some?
    then c4.(displayDuration := cli.minutes.value * MillisPerMinute, displayDurationSet := true)
    else c4
  }

  /** The command line as the program applies it: `--minutes` reads the
      `transitions` option as an integer, a lookup that raises (the option is
      either absent or holds a list of names), so any use of `--minutes` ends
      construction with an error. */
  function ApplyCliAsWritten(cli: Cli, env: Env, existing: set<string>): (r: Result<Config, ConfigError>)
    ensures r.Failure? <==> cli.minutes.Some?
    ensures r.Failure? ==> r.error == BadOptionCast
    ensures r.Success? ==> r.value == ApplyCli(cli, env, existing)
  {
    if cli.minutes.Some? then Failure(BadOptionCast) else Success(ApplyCli(cli, env, existing))
  }

  /** A witness of the `--minutes` defect: `-m 5` is refused as written, while the
      corrected reading yields a five-minute display duration. */
  lemma MinutesOptionDefect(env: Env, existing: set<string>)
    ensures var cli := Cli(None, None, None, None, None, Some(5));
            ApplyCliAsWritten(cli, env, existing).Failure?
            && ApplyCli(cli, env, existing).displayDuration == 300000
  {
  }

  /** Whether the file's value for a field replaces the current one: on a
      reload whenever the file defines it, otherwise only when the command line
      did not set the field. */
  predicate Overrides(reload: bool, setByCli: bool, defined: bool) {
    (reload || !setByCli) && defined
  }

  /** The value a field has after the merge: the file's value when it overrides
      the current one and passes the field's own check, else the current one. */
  function MergeField<T>(reload: bool, setByCli: bool, fromFile: Option<T>, valid: bool, current: T): (v: T)
    ensures Overrides(reload, setByCli, fromFile.Some?) && valid ==> v == fromFile.value
    ensures !(Overrides(reload, setByCli, fromFile.Some?) && valid) ==> v == current
  {
    if Overrides(reload, setByCli, fromFile.Some?) && valid then fromFile.value else current
  }

  /** The snapshot after merging file `f` into `c`, before the directory check. */
  function Merge(c: Config, f: ConfigFile, reload: bool, existing: set<string>): (merged: Config)
  {
    c.(directory := MergeField(reload, c.directory != "", f.directory,
                               f.directory.Some? && f.directory.value in existing, c.directory),
       bgColor := if Overrides(reload, c.bgColorSet, f.bgColor.Some?) && ColorOf(f.bgColor.value).Some?
                  then ColorOf(f.bgColor.value).value else c.bgColor,
       transitions := MergeField(reload, c.transitions != [], f.transitions, true, c.transitions),
       transitionDuration := MergeField(reload, c.transitionDurationSet, f.duration, true, c.transitionDuration),
       displayDuration := MergeField(reload, c.displayDurationSet,
                                     if f.minutes.Some? then Some(f.minutes.value * MillisPerMinute) else None,
                                     true, c.displayDuration))
  }

  /** Whether the config library can read the file at `path`: the empty path
      (no config location known) never can. */
  predicate Readable(path: string, files: map<string, ConfigFile>) {
    path != "" && path in files
  }

  /** `load_config(reload)`: merge the file at `c.configPath` into `c`. A file
      directory is kept only if it exists; a file colour only with four
      elements; a file transition list replaces the current list. Fails when
      the file cannot be read or when no directory is known afterwards. */
  function LoadConfig(c: Config, files: map<string, ConfigFile>, reload: bool, existing: set<string>)
    : (r: Result<Config, ConfigError>)
    ensures !Readable(c.configPath, files) ==> r == Failure(UnreadableConfigFile(c.configPath))
    ensures r.Success? ==> r.value.directory != ""
    ensures r.Success? ==> (r.value.configPath == c.configPath
                            && r.value.bgColorSet == c.bgColorSet
                            && r.value.transitionDurationSet == c.transitionDurationSet
                            && r.value.displayDurationSet == c.displayDurationSet)
    ensures Readable(c.configPath, files) && r.Success? ==>
      var f := files[c.configPath];
      && r.value.directory ==
           (if Overrides(reload, c.directory != "", f.directory.Some?) && f.directory.value in existing
            then f.directory.value else c.directory)
      && r.value.bgColor ==
           (if Overrides(reload, c.bgColorSet, f.bgColor.Some?) && |f.bgColor.value| == 4
            then ColorOf(f.bgColor.value).value else c.bgColor)
      && r.value.transitions ==
           (if Overrides(reload, c.transitions != [], f.transitions.Some?)
            then f.transitions.value else c.transitions)
      && r.value.transitionDuration ==
           (if Overrides(reload, c.transitionDurationSet, f.duration.Some?)
            then f.duration.value else c.transitionDuration)
      && r.value.displayDuration ==
           (if Overrides(reload, c.displayDurationSet, f.minutes.Some?)
            then f.minutes.value * MillisPerMinute else c.displayDuration)
    ensures Readable(c.configPath, files) ==>
      var f := files[c.configPath];
      (r.Failure? <==>
         (if Overrides(reload, c.directory != "", f.directory.Some?) && f.directory.value in existing
          then f.directory.value else c.directory) == "")
  {
    if !Readable(c.configPath, files) then Failure(UnreadableConfigFile(c.configPath))
    else
      var merged := Merge(c, files[c.configPath], reload, existing);
      if merged.directory == "" then Failure(NoWallpaperDirectory) else Success(merged)
  }

  /** Construction: defaults, then the command line, then the initial
      (non-reload) load of the resolved config file. */
  function NewConfig(cli: Cli, env: Env, existing: set<string>, files: map<string, ConfigFile>)
    : (r: Result<Config, ConfigError>)
    ensures !Readable(ResolveConfigPath(cli.config, env, existing), files) ==>
              r == Failure(UnreadableConfigFile(ResolveConfigPath(cli.config, env, existing)))
    ensures Readable(ResolveConfigPath(cli.config, env, existing), files) ==>
              var f := files[ResolveConfigPath(cli.config, env, existing)];
              (r.Success? <==>
                 || (cli.directory.Some? && cli.directory.value in existing && cli.directory.value != "")
                 || (f.directory.Some? && f.directory.value in existing && f.directory.value != ""))
    ensures r.Success? ==> && r.value.configPath == ResolveConfigPath(cli.config, env, existing)
                           && (r.value.bgColorSet <==> cli.bgColor.Some? && |cli.bgColor.value| == 4)
                           && (r.value.transitionDurationSet <==> cli.duration.Some?)
                           && (r.value.displayDurationSet <==> cli.minutes.Some?)
    ensures r.Success? ==> r.value.directory != "" && r.value.directory in existing
    ensures Readable(ResolveConfigPath(cli.config, env, existing), files) && r.Success? ==>
              var f := files[ResolveConfigPath(cli.config, env, existing)];
              && r.value.directory ==
                   (if cli.directory.Some? && cli.directory.value in existing && cli.directory.value != ""
                    then cli.directory.value else f.directory.value)
              && r.value.bgColor ==
                   (if cli.bgColor.Some? && |cli.bgColor.value| == 4 then ColorOf(cli.bgColor.value).value
                    else if f.bgColor.Some? && |f.bgColor.value| == 4 then ColorOf(f.bgColor.value).value
                    else DefaultBgColor)
              && r.value.transitions ==
                   (if cli.transitions.GetOr([]) == [] && f.transitions.Some?
                    then f.transitions.value else cli.transitions.GetOr([]))
              && r.value.transitionDuration ==
                   (if cli.duration.Some? then cli.duration.value
                    else f.duration.GetOr(DefaultTransitionDuration))
              && r.value.displayDuration ==
                   (if cli.minutes.Some? then cli.minutes.value * MillisPerMinute
                    else f.minutes.GetOr(DefaultDisplayMinutes) * MillisPerMinute)
    ensures r.Success? && cli.directory.Some? && cli.directory.value in existing && cli.directory.value != "" ==>
              r.value.directory == cli.directory.value
  {
    LoadConfig(ApplyCli(cli, env, existing), files, false, existing)
  }

  /** Reload precedence for the transition duration: the command line beats the
      file at start-up, and a later reload hands the field to the file. */
  lemma DurationPrecedence(cli: Cli, env: Env, existing: set<string>, files: map<string, ConfigFile>)
    requires cli.duration.Some?
    requires NewConfig(cli, env, existing, files).Success?
    ensures var c := NewConfig(cli, env, existing, files).value;
            var f := files[c.configPath];
            && c.transitionDuration == cli.duration.value
            && (f.duration.Some? && LoadConfig(c, files, true, existing).Success? ==>
                  LoadConfig(c, files, true, existing).value.transitionDuration == f.duration.value)
  {
    var c0 := ApplyCli(cli, env, existing);
    assert c0.transitionDurationSet;
  }

  /** The same precedence for the colour: a valid command-line colour survives
      the initial load, and a reload takes a four-element file colour. */
  lemma ColorPrecedence(cli: Cli, env: Env, existing: set<string>, files: map<string, ConfigFile>)
    requires cli.bgColor.Some? && |cli.bgColor.value| == 4
    requires NewConfig(cli, env, existing, files).Success?
    ensures var c := NewConfig(cli, env, existing, files).value;
            var f := files[c.configPath];
            && c.bgColor == ColorOf(cli.bgColor.value).value
            && (f.bgColor.Some? && |f.bgColor.value| == 4 && LoadConfig(c, files, true, existing).Success? ==>
                  LoadConfig(c, files, true, existing).value.bgColor == ColorOf(f.bgColor.value).value)
  {
    var c0 := ApplyCli(cli, env, existing);
    assert c0.bgColorSet;
  }

  /** A reload after the initial load gives what a reload alone would give: the
      file's values win, so the earlier merge leaves no trace. */
  lemma ReloadAfterLoad(c: Config, files: map<string, ConfigFile>, existing: set<string>)
    requires LoadConfig(c, files, false, existing).Success?
    ensures LoadConfig(LoadConfig(c, files, false, existing).value, files, true, existing)
            == LoadConfig(c, files, true, existing)
  {
    var c1 := LoadConfig(c, files, false, existing).value;
    var f := files[c.configPath];
    assert c1.configPath == c.configPath;
    assert Merge(c1, f, true, existing) == Merge(c, f, true, existing);
  }

  /** Reloading twice from the same file changes nothing the second time. */
  lemma ReloadIdempotent(c: Config, files: map<string, ConfigFile>, existing: set<string>)
    requires LoadConfig(c, files, true, existing).Success?
    ensures var c1 := LoadConfig(c, files, true, existing).value;
            LoadConfig(c1, files, true, existing) == Success(c1)
  {
    var c1 := LoadConfig(c, files, true, existing).value;
    assert Merge(c1, files[c.configPath], true, existing) == c1;
  }

  /** A command-line colour with three values is refused and the default stays,
      even after the file is merged, when the file has no colour. */
  lemma ShortColorRejected(x: real, y: real, z: real, env: Env, existing: set<string>,
                           files: map<string, ConfigFile>)
    requires var c := ApplyCli(Cli(None, None, Some([x, y, z]), None, None, None), env, existing);
             c.configPath in files && files[c.configPath].bgColor.None?
    ensures var cli := Cli(None, None, Some([x, y, z]), None, None, None);
            var r := NewConfig(cli, env, existing, files);
            r.Success? ==> r.value.bgColor == DefaultBgColor && !r.value.bgColorSet
  {
  }
}

=== FILE: embed.dfy ===
/** The build-time embedder that turns GLSL effect files into a C++ source
    defining the effect registry: each input file becomes one entry
    `{ "name", new unsigned char[]{ 0x.., ... } },` keyed by the file's base
    name without extension.

    Inputs are the argument vector (program name first, output path last) and
    the contents of the files that can be opened. The read loop of the program
    tests for end-of-file before reading, so after the last byte it emits one
    more value, read from a character the failed read left indeterminate; that
    value is the parameter `trailer`. The renderer reads each array as a
    C string, so the corrected tool is the same program with `trailer` fixed
    to the terminator zero. */
module Embed {
  import opened Wrappers

  type Byte = b: int | 0 <= b < 256

  /** The status and the text written to the output path. */
  datatype EmbedOutcome = EmbedOutcome(success: bool, outPath: string, written: string)

  const Header :=
    "#include <map>\n" +
    "#include <string>\n" +
    "std::map<std::string_view, const unsigned char*> transitions_map = {\n"

  const Footer := "\n};\n"

  /** Bytes per output line. */
  const LineLength := 10

  /** Index of the last occurrence of `c` in `s`, or -1 (the "not found" index,
      one less than zero). */
  function LastIndexOf(s: string, c: char): (k: int)
    ensures -1 <= k < |s|
    ensures k >= 0 ==> s[k] == c
    ensures forall j :: k < j < |s| ==> s[j] != c
  {
    if s == [] then -1
    else if s[|s| - 1] == c then |s| - 1
    else LastIndexOf(s[..|s| - 1], c)
  }

  /** The text after the last occurrence of `c` does not contain `c`. */
  lemma AfterLastIndex(s: string, c: char)
    ensures c !in s[LastIndexOf(s, c) + 1..]
  {
    var k := LastIndexOf(s, c);
    var rest := s[k + 1..];
    forall j | 0 <= j < |rest| ensures rest[j] != c {
      assert rest[j] == s[k + 1 + j];
    }
  }

  /** The text after the last `/`, or all of it when there is none. */
  function Basename(path: string): (name: string)
    ensures '/' !in name
    ensures |name| <= |path| && name == path[|path| - |name|..]
    ensures |name| < |path| ==> path[|path| - |name| - 1] == '/'
  {
    AfterLastIndex(path, '/');
    path[LastIndexOf(path, '/') + 1..]
  }

  /** The text before the last `.`, or all of it when there is none. */
  function StripExtension(name: string): (stem: string)
    ensures stem <= name
    ensures '.' !in name ==> stem == name
    ensures '.' in name ==> |stem| < |name| && name[|stem|] == '.' && '.' !in name[|stem| + 1..]
  {
    var k := LastIndexOf(name, '.');
    AfterLastIndex(name, '.');
    if k < 0 then
      assert name[k + 1..] == name;
      name
    else name[..k]
  }

  /** The registry key of an input file. */
  function EffectName(path: string): (key: string) {
    StripExtension(Basename(path))
  }

  /** Dots in directory names play no part: the key depends on the file name
      alone. */
  lemma {:induction false} EffectNameIgnoresDirectory(dir: string, file: string)
    requires '/' !in file
    ensures EffectName(dir + "/" + file) == StripExtension(file)
  {
    var path := dir + "/" + file;
    var name := Basename(path);
    assert path[|dir|] == '/';
    assert path[|dir| + 1..] == file;
    assert |name| <= |file| by {
      if |name| > |file| {
        assert false;
      }
    }
    assert |name| >= |file| by {
      if |name| < |file| {
        assert false;
      }
    }
    assert name == file;
  }

  /** The lowercase hexadecimal digit of `d`. */
  function HexDigit(d: nat): (c: char)
    requires d < 16
    ensures IsHexDigit(c)
  {
    if d < 10 then ('0' as int + d) as char else ('a' as int + d - 10) as char
  }

  predicate IsHexDigit(c: char) {
    '0' <= c <= '9' || 'a' <= c <= 'f'
  }

  /** Unpadded lowercase hexadecimal. */
  function Hex(n: nat): (s: string)
    ensures |s| >= 1
    ensures forall i :: 0 <= i < |s| ==> IsHexDigit(s[i])
    decreases n
  {
    if n < 16 then [HexDigit(n)]
    else Hex(n / 16) + [HexDigit(n % 16)]
  }

  function DigitValue(c: char): (v: nat)
    ensures v < 16
  {
    if '0' <= c <= '9' then (c - '0') as nat
    else if 'a' <= c <= 'f' then (c - 'a') as nat + 10
    else 0
  }

  /** The value of a string of hexadecimal digits, most significant first. */
  function ParseHex(s: string): (n: nat)
    decreases |s|
  {
    if s == [] then 0 else ParseHex(s[..|s| - 1]) * 16 + DigitValue(s[|s| - 1])
  }

  /** Hex output reads back as the number it came from, with no leading zero. */
  lemma {:induction false} HexRoundTrip(n: nat)
    ensures ParseHex(Hex(n)) == n
    ensures |Hex(n)| > 1 ==> Hex(n)[0] != '0'
    decreases n
  {
    if n >= 16 {
      HexRoundTrip(n / 16);
      var s := Hex(n);
      assert s[..|s| - 1] == Hex(n / 16);
    }
  }

  /** A byte needs one or two hex digits. */
  lemma {:induction false} ByteHexLength(b: Byte)
    ensures 1 <= |Hex(b)| <= 2
  {
    if b >= 16 {
      assert Hex(b) == Hex(b / 16) + [HexDigit(b % 16)];
      assert b / 16 < 16;
    }
  }

  /** One emitted byte: `0x`, its hex digits, a comma. */
  function Token(b: Byte): (token: string) {
    "0x" + Hex(b) + ","
  }

  /** The emitted bytes, `count` of them already on the current line: a line
      break after every tenth byte. */
  function Body(bytes: seq<Byte>, count: nat): (text: string)
    requires count < LineLength
    decreases |bytes|
  {
    if bytes == [] then ""
    else if count + 1 == LineLength then Token(bytes[0]) + "\n" + Body(bytes[1..], 0)
    else Token(bytes[0]) + Body(bytes[1..], count + 1)
  }

  function CountChar(s: string, c: char): (n: nat)
    decreases |s|
  {
    if s == [] then 0 else (if s[0] == c then 1 else 0) + CountChar(s[1..], c)
  }

  lemma {:induction false} CountCharConcat(a: string, b: string, c: char)
    ensures CountChar(a + b, c) == CountChar(a, c) + CountChar(b, c)
    decreases |a|
  {
    if a == [] {
      assert a + b == b;
    } else {
      assert (a + b)[1..] == a[1..] + b;
      CountCharConcat(a[1..], b, c);
    }
  }

  lemma {:induction false} CountCharAbsent(s: string, c: char)
    requires c !in s
    ensures CountChar(s, c) == 0
    decreases |s|
  {
    if s != [] {
      assert s[1..] <= s[1..];
      assert forall x :: x in s[1..] ==> x in s;
      CountCharAbsent(s[1..], c);
    }
  }

  lemma TokenHasNoBreak(b: Byte)
    ensures CountChar(Token(b), '\n') == 0
  {
    var t := Token(b);
    assert forall i :: 0 <= i < |Hex(b)| ==> Hex(b)[i] != '\n';
    assert forall i :: 0 <= i < |t| ==> t[i] != '\n';
    CountCharAbsent(t, '\n');
  }

  /** Line wrapping: with `count` bytes already on the line, the body has one
      line break per completed line of ten. */
  lemma {:induction false} BodyLineBreaks(bytes: seq<Byte>, count: nat)
    requires count < LineLength
    ensures CountChar(Body(bytes, count), '\n') == (count + |bytes|) / LineLength
    decreases |bytes|
  {
    if bytes != [] {
      TokenHasNoBreak(bytes[0]);
      BodyLineBreaks(bytes[1..], if count + 1 == LineLength then 0 else count + 1);
      if count + 1 == LineLength {
        CountCharConcat(Token(bytes[0]), "\n", '\n');
        CountCharConcat(Token(bytes[0]) + "\n", Body(bytes[1..], 0), '\n');
        assert CountChar("\n", '\n') == 1;
      } else {
        CountCharConcat(Token(bytes[0]), Body(bytes[1..], count + 1), '\n');
      }
    }
  }

  /** The index of the first character at or after `i` that is not a hex digit. */
  function HexRun(s: string, i: nat): (j: nat)
    requires i <= |s|
    ensures i <= j <= |s|
    decreases |s| - i
  {
    if i < |s| && IsHexDigit(s[i]) then HexRun(s, i + 1) else i
  }

  lemma {:induction false} HexRunStopsAfter(s: string, i: nat, k: nat)
    requires i + k <= |s|
    requires forall m :: i <= m < i + k ==> IsHexDigit(s[m])
    requires i + k == |s| || !IsHexDigit(s[i + k])
    ensures HexRun(s, i) == i + k
    decreases k
  {
    if k > 0 {
      HexRunStopsAfter(s, i + 1, k - 1);
    }
  }

  /** Reads an emitted body back into bytes: line breaks are skipped, every
      token must be `0x`, one or more hex digits of a byte value, and `,`. */
  function DecodeBody(s: string): (r: Option<seq<Byte>>)
    decreases |s|
  {
    if s == [] then Some([])
    else if s[0] == '\n' then DecodeBody(s[1..])
    else if |s| >= 3 && s[0] == '0' && s[1] == 'x' then
      var j := HexRun(s, 2);
      if j == 2 || j == |s| || s[j] != ',' || ParseHex(s[2..j]) >= 256 then None
      else match DecodeBody(s[j + 1..])
        case None => None
        case Some(rest) => Some([ParseHex(s[2..j]) as Byte] + rest)
    else None
  }

  lemma DecodeToken(b: Byte, rest: string)
    ensures DecodeBody(Token(b) + rest) == match DecodeBody(rest)
                                           case None => None
                                           case Some(bs) => Some([b] + bs)
  {
    var s := Token(b) + rest;
    var h := Hex(b);
    assert s == "0x" + h + "," + rest;
    assert s[0] == '0' && s[1] == 'x';
    assert forall m :: 2 <= m < 2 + |h| ==> s[m] == h[m - 2];
    assert s[2 + |h|] == ',';
    assert !IsHexDigit(',');
    HexRunStopsAfter(s, 2, |h|);
    assert s[2..2 + |h|] == h;
    HexRoundTrip(b);
    assert s[2 + |h| + 1..] == rest;
  }

  /** The body decodes to exactly the bytes it was emitted from. */
  lemma {:induction false} BodyRoundTrip(bytes: seq<Byte>, count: nat)
    requires count < LineLength
    ensures DecodeBody(Body(bytes, count)) == Some(bytes)
    decreases |bytes|
  {
    if bytes == [] {
    } else if count + 1 == LineLength {
      var tail := Body(bytes[1..], 0);
      BodyRoundTrip(bytes[1..], 0);
      assert ("\n" + tail)[0] == '\n' && ("\n" + tail)[1..] == tail;
      assert Token(bytes[0]) + "\n" + tail == Token(bytes[0]) + ("\n" + tail);
      DecodeToken(bytes[0], "\n" + tail);
      assert [bytes[0]] + bytes[1..] == bytes;
    } else {
      BodyRoundTrip(bytes[1..], count + 1);
      DecodeToken(bytes[0], Body(bytes[1..], count + 1));
      assert [bytes[0]] + bytes[1..] == bytes;
    }
  }

  /** The bytes the read loop emits for a file: its contents and then the one
      value `trailer` it emits past the end. */
  function EmittedBytes(content: seq<Byte>, trailer: Byte): (emitted: seq<Byte>)
    ensures |emitted| == |content| + 1
    ensures emitted[..|content|] == content
  {
    content + [trailer]
  }

  /** One registry entry as written for input `path`. */
  function Entry(path: string, emitted: seq<Byte>): (entry: string) {
    "{\n" + "\"" + EffectName(path) + "\", new unsigned char[]{\n" + Body(emitted, 0) + "} },\n"
  }

  /** The entries for `inputs` appended to `out`, stopping with a failure at the
      first input that cannot be opened. */
  function Entries(inputs: seq<string>, files: map<string, seq<Byte>>, trailer: Byte, out: string): (r: EmbedOutcome)
    ensures |r.written| >= |out| && r.written[..|out|] == out
    decreases |inputs|
  {
    if inputs == [] then EmbedOutcome(true, "", out + Footer)
    else if inputs[0] !in files then EmbedOutcome(false, "", out)
    else
      var next := out + Entry(inputs[0], EmittedBytes(files[inputs[0]], trailer));
      var r := Entries(inputs[1..], files, trailer, next);
      assert r.written[..|out|] == r.written[..|next|][..|out|];
      r
  }

  /** The embedder's main: fewer than two paths after the program name is a
      usage error (the output file is created empty all the same); otherwise
      the header, one entry per input in argument order, and the footer. */
  function Embed(argv: seq<string>, files: map<string, seq<Byte>>, trailer: Byte): (r: EmbedOutcome)
    requires |argv| >= 1
    ensures r.outPath == argv[|argv| - 1]
    ensures |argv| < 3 ==> !r.success && r.written == ""
    ensures |argv| >= 3 ==> (r.success <==> forall p :: p in argv[1..|argv| - 1] ==> p in files)
    ensures r.success ==> |r.written| >= |Header| && r.written[..|Header|] == Header
    ensures r.success ==> |r.written| >= |Footer| && r.written[|r.written| - |Footer|..] == Footer
  {
    if |argv| < 3 then EmbedOutcome(false, argv[|argv| - 1], "")
    else
      var r := Entries(argv[1..|argv| - 1], files, trailer, Header);
      EntriesSucceedIffReadable(argv[1..|argv| - 1], files, trailer, Header);
      EntriesEndWithFooter(argv[1..|argv| - 1], files, trailer, Header);
      r.(outPath := argv[|argv| - 1])
  }

  lemma {:induction false} EntriesSucceedIffReadable(inputs: seq<string>, files: map<string, seq<Byte>>, trailer: Byte, out: string)
    ensures Entries(inputs, files, trailer, out).success <==> forall p :: p in inputs ==> p in files
    decreases |inputs|
  {
    if inputs != [] && inputs[0] in files {
      EntriesSucceedIffReadable(inputs[1..], files, trailer, out + Entry(inputs[0], EmittedBytes(files[inputs[0]], trailer)));
      assert forall p :: p in inputs ==> p == inputs[0] || p in inputs[1..];
    }
  }

  lemma {:induction false} EntriesEndWithFooter(inputs: seq<string>, files: map<string, seq<Byte>>, trailer: Byte, out: string)
    ensures var r := Entries(inputs, files, trailer, out);
            r.success ==> |r.written| >= |Footer| && r.written[|r.written| - |Footer|..] == Footer
    decreases |inputs|
  {
    if inputs != [] && inputs[0] in files {
      EntriesEndWithFooter(inputs[1..], files, trailer, out + Entry(inputs[0], EmittedBytes(files[inputs[0]], trailer)));
    }
  }

  /** The entries of `inputs` one after another, in argument order: the text
      the accumulating loop appends, stated without an accumulator. */
  function EntriesText(inputs: seq<string>, files: map<string, seq<Byte>>, trailer: Byte): (text: string)
    requires forall p :: p in inputs ==> p in files
    decreases |inputs|
  {
    if inputs == [] then ""
    else
      assert forall p :: p in inputs[1..] ==> p in inputs;
      Entry(inputs[0], EmittedBytes(files[inputs[0]], trailer)) + EntriesText(inputs[1..], files, trailer)
  }

  /** With every input readable, the entries follow what was written before
      them in argument order, and the footer closes the output. */
  lemma {:induction false} EntriesInArgumentOrder(inputs: seq<string>, files: map<string, seq<Byte>>, trailer: Byte, out: string)
    requires forall p :: p in inputs ==> p in files
    ensures Entries(inputs, files, trailer, out).written == out + EntriesText(inputs, files, trailer) + Footer
    decreases |inputs|
  {
    if inputs != [] {
      var e := Entry(inputs[0], EmittedBytes(files[inputs[0]], trailer));
      assert forall p :: p in inputs[1..] ==> p in inputs;
      EntriesInArgumentOrder(inputs[1..], files, trailer, out + e);
      Regroup(out, e, EntriesText(inputs[1..], files, trailer));
    }
  }

  /** A successful run writes the header, the entries in argument order, and
      the footer, and nothing else. */
  lemma EmbedOutputLayout(argv: seq<string>, files: map<string, seq<Byte>>, trailer: Byte)
    requires |argv| >= 3 && forall p :: p in argv[1..|argv| - 1] ==> p in files
    ensures Embed(argv, files, trailer).success
    ensures Embed(argv, files, trailer).written
            == Header + EntriesText(argv[1..|argv| - 1], files, trailer) + Footer
  {
    EntriesInArgumentOrder(argv[1..|argv| - 1], files, trailer, Header);
  }

  /** The line counter after one more byte. */
  function NextCount(count: nat): (next: nat)
    requires count < LineLength
    ensures next < LineLength
    ensures next == (count + 1) % LineLength
  {
    if count + 1 == LineLength then 0 else count + 1
  }


  /** Moving the split point of written text: kept as a lemma so that the loop
      and induction steps above see one equation instead of the whole theory
      of sequence concatenation. */
  lemma Regroup(a: string, b: string, c: string)
    ensures (a + b) + c == a + (b + c)
  {
  }

  /** The read loop for one file: a token per emitted byte, a line break each
      time the line counter reaches ten, the counter then reset. */
  method EmitBody(content: seq<Byte>) returns (body: string)
    ensures body == Body(content, 0)
  {
    body := "";
    var lineCount := 0;
    var k := 0;
    while k < |content|
      invariant 0 <= k <= |content|
      invariant lineCount < LineLength
      invariant body + Body(content[k..], lineCount) == Body(content, 0)
    {
      ghost var before := body;
      ghost var rest := content[k..];
      ghost var brk := if lineCount + 1 == LineLength then "\n" else "";
      assert rest[1..] == content[k + 1..];
      assert Body(rest, lineCount) == Token(rest[0]) + brk + Body(rest[1..], NextCount(lineCount));
      body := body + Token(content[k]);
      lineCount := lineCount + 1;
      if lineCount == LineLength {
        lineCount := 0;
        body := body + "\n";
      }
      assert body == before + (Token(rest[0]) + brk);
      k := k + 1;
      Regroup(before, Token(rest[0]) + brk, Body(content[k..], lineCount));
    }
    assert content[k..] == [];
  }

  /** The program's main loop: the header, then per input the open check and
      the entry, stopping at the first input that cannot be opened; the footer
      last. */
  method EmbedProgram(argv: seq<string>, files: map<string, seq<Byte>>, trailer: Byte) returns (ok: bool, out: string)
    requires |argv| >= 1
    ensures EmbedOutcome(ok, argv[|argv| - 1], out) == Embed(argv, files, trailer)
  {
    out := "";
    if |argv| < 3 {
      return false, out;
    }
    var inputs := argv[1..|argv| - 1];
    out := Header;
    var i := 0;
    while i < |inputs|
      invariant 0 <= i <= |inputs|
      invariant Entries(inputs[i..], files, trailer, out) == Entries(inputs, files, trailer, Header)
    {
      assert inputs[i..][0] == inputs[i];
      assert inputs[i..][1..] == inputs[i + 1..];
      if inputs[i] !in files {
        return false, out;
      }
      var body := EmitBody(EmittedBytes(files[inputs[i]], trailer));
      out := out + ("{\n" + "\"" + EffectName(inputs[i]) + "\", new unsigned char[]{\n" + body + "} },\n");
      i := i + 1;
    }
    assert inputs[i..] == [];
    out := out + Footer;
    ok := true;
  }

  /** The text the renderer reads from an embedded array, which it treats as a
      C string: the bytes before the first zero, or `None` when the array
      holds no zero and the read runs past its end. */
  function CString(bytes: seq<Byte>): (r: Option<seq<Byte>>)
    ensures r.None? <==> 0 !in bytes
    ensures r.Some? ==> && |r.value| < |bytes| && r.value == bytes[..|r.value|]
                        && 0 !in r.value && bytes[|r.value|] == 0
    decreases |bytes|
  {
    if bytes == [] then None
    else if bytes[0] == 0 then Some([])
    else
      assert bytes == [bytes[0]] + bytes[1..];
      match CString(bytes[1..])
      case None => None
      case Some(t) => Some([bytes[0]] + t)
  }

  /** As written, a text file (no zero byte) embeds without a terminator
      whenever the value emitted past the end is not zero: the array decodes
      to the file plus that value, and the renderer's read of the effect runs
      off the array. Any non-empty text file shows it when the character the
      failed read leaves untouched holds a non-zero value, such as the file's
      final newline. */
  lemma {:induction false} ReadLoopLeavesTextUnterminated(content: seq<Byte>, trailer: Byte)
    requires 0 !in content && trailer != 0
    ensures DecodeBody(Body(EmittedBytes(content, trailer), 0)) == Some(content + [trailer])
    ensures CString(EmittedBytes(content, trailer)) == None
  {
    BodyRoundTrip(EmittedBytes(content, trailer), 0);
  }

  /** Corrected, the value after the contents is the terminator zero: the
      array decodes to the file and its terminator, and the renderer reads back
      exactly the file. */
  lemma {:induction false} TerminatedEntryRoundTrip(content: seq<Byte>)
    requires 0 !in content
    ensures DecodeBody(Body(EmittedBytes(content, 0), 0)) == Some(content + [0])
    ensures CString(EmittedBytes(content, 0)) == Some(content)
  {
    BodyRoundTrip(EmittedBytes(content, 0), 0);
  }
}

=== FILE: engine.dfy ===
/** The transition engine of the wallpaper window: preparing a transition
    (effect, program, uniforms, images), starting it, animating it against the
    clock, and the display-time poll loop that waits for a timeout or a
    command.

    Time is integer milliseconds on a monotonic clock. Every random draw of a
    preparation comes in a `Draws` value; the commands of the message bus
    come in as a sequence of poll results, each with the clock reading taken
    after it. One call of `Frame` is one pass of the window's main loop. */
module Engine {
  import opened Wrappers
  import opened Configuration
  import opened Shaders
  import opened Catalogue

  /** The size of the display area in pixels. */
  datatype Screen = Screen(width: nat, height: nat)

  /** Everything outside the engine that its decisions depend on: the effect
      registry and which effects fail to build, the config files and existing
      paths, the directory listings and which files are (decodable) images. */
  datatype World = World(
    registry: map<string, string>,
    unlinkable: set<string>,
    files: map<string, ConfigFile>,
    existing: set<string>,
    listings: map<string, seq<string>>,
    images: set<string>,
    loadable: set<string>)

  /** The random draws of one transition preparation: a sample of the enabled
      list (reduced to its length), a sample of the registry, two raw image
      samples, and the draws of the effect-specific uniforms. */
  datatype Draws = Draws(
    effectIndex: nat,
    effectKey: string,
    firstImage: nat,
    secondImage: nat,
    directions: DirectionDraws)

  datatype EngineError =
    | ConfigFailed(config: ConfigError)
    | ShaderFailed(shader: ShaderError)
    | CatalogueFailed(catalogue: CatalogueError)

  datatype Engine = Engine(
    screen: Screen,
    config: Config,
    paths: seq<string>,
    shader: Option<Shader>,
    uniforms: map<string, UniformValue>,
    textures: Textures,
    animating: bool,
    transitionStart: int,
    transitionEnd: int,
    firstDraw: bool)

  /** The state every engine built by `Boot` and advanced by `Frame` is in. */
  predicate Valid(e: Engine, w: World) {
    && e.screen.height > 0
    && |e.paths| >= 2 && Distinct(e.paths)
    && e.shader.Some? && e.shader.value.effect in w.registry
    && e.textures.Bound? && e.textures.current != e.textures.next
    && e.config.directory != ""
    && (e.animating ==> e.transitionEnd == e.transitionStart + e.config.transitionDuration && !e.firstDraw)
  }

  /** Directory listings never repeat an entry. */
  predicate WellFormedWorld(w: World) {
    forall d :: d in w.listings ==> Distinct(w.listings[d])
  }

  /** The uniform assignments of a list, later ones winning. */
  function Assign(m: map<string, UniformValue>, us: seq<Uniform>): (r: map<string, UniformValue>)
    ensures r.Keys == m.Keys + UniformNames(us)
    ensures forall k :: k in m && k !in UniformNames(us) ==> r[k] == m[k]
    ensures UniqueNames(us) ==> forall u :: u in us ==> r[u.name] == u.value
    decreases |us|
  {
    if us == [] then m
    else
      var r := Assign(m[us[0].name := us[0].value], us[1..]);
      assert UniformNames(us) == {us[0].name} + UniformNames(us[1..]);
      assert UniqueNames(us) ==> us[0].name !in UniformNames(us[1..]);
      assert UniqueNames(us) ==> UniqueNames(us[1..]) by {
        if UniqueNames(us) {
          forall i, j | 0 <= i < j < |us[1..]| ensures us[1..][i].name != us[1..][j].name {
            assert us[1..][i] == us[i + 1] && us[1..][j] == us[j + 1];
          }
        }
      }
      assert forall u :: u in us ==> u == us[0] || u in us[1..];
      r
  }

  /** The uniforms a freshly built program receives before its images are
      bound: `ratio` as the float quotient of the screen sides, `progress` = 0,
      and the effect's own uniforms, computed with the integer quotient. */
  function ProgramUniforms(effect: string, screen: Screen, bg: Rgba, draws: DirectionDraws)
    : (m: map<string, UniformValue>)
    requires screen.height > 0
    ensures "progress" in m && m["progress"] == Float(0.0)
    ensures "ratio" in m && m["ratio"] == Float(screen.width as real / screen.height as real)
    ensures m.Keys == {"ratio", "progress"} + UniformNames(AuxUniforms(effect, bg, screen.width / screen.height, draws))
    ensures forall u :: u in AuxUniforms(effect, bg, screen.width / screen.height, draws) ==> m[u.name] == u.value
  {
    var ratio := screen.width / screen.height;
    var base := map["ratio" := Float(screen.width as real / screen.height as real), "progress" := Float(0.0)];
    var aux := AuxUniforms(effect, bg, ratio, draws);
    AuxUniformsAreAuxiliary(effect, bg, ratio, draws);
    AuxUniformsUnique(effect, bg, ratio, draws);
    assert "progress" !in UniformNames(aux) && "ratio" !in UniformNames(aux);
    Assign(base, aux)
  }

  /** `setup_transition`: choose an effect, build its program, set `ratio`
      (the float quotient of the screen sides), `progress` = 0 and the
      effect's own uniforms (which use the integer quotient), then advance the
      bound images and bind them to units 0 and 1. */
  function SetupTransition(e: Engine, w: World, d: Draws): (r: Result<Engine, EngineError>)
    requires e.screen.height > 0 && |e.paths| > 0
    requires e.config.transitions == [] ==> d.effectKey in w.registry
    ensures var shader := CreateShader(ChooseEffect(e.config.transitions, w.registry, d.effectIndex, d.effectKey),
                                       w.registry, w.unlinkable);
            var textures := LoadTextures(e.paths, e.textures, d.firstImage, d.secondImage, w.loadable);
            && (r.Success? <==> shader.Success? && textures.Success?)
            && (shader.Failure? ==> r == Failure(ShaderFailed(shader.error)))
            && (shader.Success? && textures.Failure? ==> r == Failure(CatalogueFailed(textures.error)))
            && (r.Success? ==> r.value.shader == Some(shader.value) && r.value.textures == textures.value)
    ensures r.Success? ==>
              r.value.uniforms == ProgramUniforms(r.value.shader.value.effect, e.screen, e.config.bgColor, d.directions)
                                  ["from" := Int(0)]["to" := Int(1)]
    ensures r.Success? ==> r.value.textures.Bound?
                           && (e.textures.Bound? ==> r.value.textures.current == e.textures.next)
    ensures r.Success? && |e.paths| >= 2 && Distinct(e.paths) ==>
              r.value.textures.current != r.value.textures.next
    ensures r.Success? ==> && "progress" in r.value.uniforms && r.value.uniforms["progress"] == Float(0.0)
                           && "from" in r.value.uniforms && r.value.uniforms["from"] == Int(0)
                           && "to" in r.value.uniforms && r.value.uniforms["to"] == Int(1)
    ensures r.Success? ==> r.value == e.(shader := r.value.shader, uniforms := r.value.uniforms,
                                         textures := r.value.textures)
  {
    var name := ChooseEffect(e.config.transitions, w.registry, d.effectIndex, d.effectKey);
    match CreateShader(name, w.registry, w.unlinkable)
    case Failure(err) => Failure(ShaderFailed(err))
    case Success(shader) =>
      var uniforms := ProgramUniforms(shader.effect, e.screen, e.config.bgColor, d.directions);
      match LoadTextures(e.paths, e.textures, d.firstImage, d.secondImage, w.loadable)
      case Failure(err) => Failure(CatalogueFailed(err))
      case Success(textures) =>
        Success(e.(shader := Some(shader), uniforms := uniforms["from" := Int(0)]["to" := Int(1)],
                   textures := textures))
  }

  /** `start_transition`: animate from now for the configured duration. */
  function StartTransition(e: Engine, now: int): (r: Engine)
    ensures r.animating && r.transitionStart == now
    ensures r.transitionEnd - r.transitionStart == e.config.transitionDuration
    ensures r == e.(animating := true, transitionStart := r.transitionStart, transitionEnd := r.transitionEnd)
  {
    e.(animating := true, transitionStart := now, transitionEnd := now + e.config.transitionDuration)
  }

  /** Animation progress: elapsed time over the transition's length, capped at
      1. A zero length divides to infinity or not-a-number, and the cap
      `min(1, t)` turns either into 1. */
  function Progress(elapsed: int, duration: int): (t: real)
    ensures t <= 1.0
    ensures duration > 0 && elapsed >= 0 ==> 0.0 <= t
    ensures duration > 0 ==> (t == 1.0 <==> elapsed >= duration)
    ensures duration == 0 ==> t == 1.0
    ensures duration < 0 && elapsed >= 0 ==> t < 1.0
  {
    if duration == 0 then 1.0
    else
      var q := elapsed as real / duration as real;
      if q < 1.0 then q else 1.0
  }

  /** Progress never goes backwards as the clock advances. */
  lemma ProgressMonotone(e1: int, e2: int, duration: int)
    requires 0 <= e1 <= e2 && duration >= 0
    ensures Progress(e1, duration) <= Progress(e2, duration)
  {
    if duration > 0 {
      var d := duration as real;
      assert e1 as real / d <= e2 as real / d by {
        assert e1 as real <= e2 as real;
        DivMonotone(e1 as real, e2 as real, d);
      }
    }
  }

  /** Dividing by the same positive duration keeps the order of elapsed times. */
  lemma DivMonotone(a: real, b: real, d: real)
    requires a <= b && d > 0.0
    ensures a / d <= b / d
  {
    assert b / d - a / d == (b - a) / d;
  }

  /** A message taken from the bus in one poll. */
  datatype Command = NoMessage | NextWallpaper | ReloadConfig | OtherMessage

  /** One pass of the poll loop: the message popped, and the clock read after it. */
  datatype PollEvent = PollEvent(msg: Command, now: int)

  datatype ExitReason = ByNext | ByReload | ByTimeout

  datatype PollOutcome =
    | Exited(reason: ExitReason, at: nat, sleeps: nat)
    | StillPolling(sleeps: nat)

  /** Whether a pass of the poll loop leaves it: on either command, or once the
      display time since `start` has reached `display`. */
  predicate EndsPoll(ev: PollEvent, start: int, display: int) {
    ev.msg == NextWallpaper || ev.msg == ReloadConfig || ev.now - start >= display
  }

  /** Why the loop is left at a pass that ends it: the command it carries, or
      else the timeout. */
  function ReasonFor(msg: Command): (reason: ExitReason) {
    match msg
    case NextWallpaper => ByNext
    case ReloadConfig => ByReload
    case _ => ByTimeout
  }

  /** How many of the passes `lo` to `hi - 1` found no message (each of them
      sleeps 100 ms). */
  function Sleeps(events: seq<PollEvent>, lo: nat, hi: nat): (n: nat)
    requires lo <= hi <= |events|
    decreases hi - lo
  {
    if lo == hi then 0
    else (if events[lo].msg == NoMessage then 1 else 0) + Sleeps(events, lo + 1, hi)
  }

  /** The poll loop from pass `i` on: a command leaves at once, without the
      timeout check; no message sleeps, another message is dropped without
      sleeping, and both then leave if the display time is up. */
  function PollLoop(events: seq<PollEvent>, i: nat, start: int, display: int): (r: PollOutcome)
    requires i <= |events|
    ensures r.Exited? ==> i <= r.at < |events| && EndsPoll(events[r.at], start, display)
    ensures r.Exited? ==> forall j :: i <= j < r.at ==> !EndsPoll(events[j], start, display)
    ensures r.StillPolling? ==> forall j :: i <= j < |events| ==> !EndsPoll(events[j], start, display)
    ensures r.Exited? ==> r.reason == ReasonFor(events[r.at].msg)
    ensures r.Exited? ==> r.sleeps == Sleeps(events, i, r.at + 1)
    ensures r.StillPolling? ==> r.sleeps == Sleeps(events, i, |events|)
    decreases |events| - i
  {
    if i == |events| then StillPolling(0)
    else
      var ev := events[i];
      match ev.msg
      case NextWallpaper => Exited(ByNext, i, 0)
      case ReloadConfig => Exited(ByReload, i, 0)
      case _ =>
        var slept := if ev.msg == NoMessage then 1 else 0;
        if ev.now - start >= display then Exited(ByTimeout, i, slept)
        else
          match PollLoop(events, i + 1, start, display)
          case Exited(reason, at, sleeps) => Exited(reason, at, slept + sleeps)
          case StillPolling(sleeps) => StillPolling(slept + sleeps)
  }

  /** The side effects of a reload command: reload the config file (the file
      wins over the command line), rebuild the catalogue from the possibly new
      directory, and prepare a fresh transition under the new settings. */
  function Reload(e: Engine, w: World, d: Draws): (r: Result<Engine, EngineError>)
    requires e.screen.height > 0
    requires d.effectKey in w.registry
    ensures var c := LoadConfig(e.config, w.files, true, w.existing);
            && (c.Failure? ==> r == Failure(ConfigFailed(c.error)))
            && (c.Success? ==>
                  var ps := LoadPaths(c.value.directory, w.listings, w.images);
                  && (ps.Failure? ==> r == Failure(CatalogueFailed(ps.error)))
                  && (ps.Success? ==> r == SetupTransition(e.(config := c.value, paths := ps.value), w, d)))
    ensures r.Success? ==>
              && LoadConfig(e.config, w.files, true, w.existing).Success?
              && r.value.config == LoadConfig(e.config, w.files, true, w.existing).value
              && LoadPaths(r.value.config.directory, w.listings, w.images) == Success(r.value.paths)
    ensures r.Success? ==> forall p :: p in r.value.paths ==> p in w.listings[r.value.config.directory]
  {
    match LoadConfig(e.config, w.files, true, w.existing)
    case Failure(err) => Failure(ConfigFailed(err))
    case Success(config) =>
      match LoadPaths(config.directory, w.listings, w.images)
      case Failure(err) => Failure(CatalogueFailed(err))
      case Success(paths) => SetupTransition(e.(config := config, paths := paths), w, d)
  }

  /** What one pass of the main loop hands on: the advanced engine, or no
      change yet because the poll loop has consumed every event given without
      leaving. */
  datatype Step = Advanced(engine: Engine) | Polling

  /** The inputs of one pass of the main loop. */
  datatype FrameInput = FrameInput(now: int, polls: seq<PollEvent>, draws: Draws)

  /** One pass of the main loop. Animating: set `progress`; at 1, stop
      animating, restart the display clock and prepare the next transition.
      Displaying after the first frame: run the poll loop; on leaving it
      (after a reload's side effects) start the transition. The first frame
      is drawn without polling. */
  function Frame(e: Engine, w: World, input: FrameInput): (r: Result<Step, EngineError>)
    requires e.screen.height > 0 && |e.paths| > 0
    requires input.draws.effectKey in w.registry
    ensures e.animating && r.Success? ==> r.value.Advanced?
    ensures !e.animating && e.firstDraw ==> r == Success(Advanced(e.(firstDraw := false)))
    ensures r.Failure? ==>
              || (e.animating && Progress(input.now - e.transitionStart, e.transitionEnd - e.transitionStart) == 1.0)
              || (!e.animating && !e.firstDraw
                  && PollLoop(input.polls, 0, e.transitionStart, e.config.displayDuration).Exited?
                  && PollLoop(input.polls, 0, e.transitionStart, e.config.displayDuration).reason == ByReload)
    ensures r.Success? && r.value.Polling? ==>
              !e.animating && !e.firstDraw
              && forall j :: 0 <= j < |input.polls| ==>
                   !EndsPoll(input.polls[j], e.transitionStart, e.config.displayDuration)
  {
    if e.animating then
      var t := Progress(input.now - e.transitionStart, e.transitionEnd - e.transitionStart);
      var shown := e.(uniforms := e.uniforms["progress" := Float(t)]);
      if t >= 1.0 then
        match SetupTransition(shown.(animating := false, transitionStart := input.now), w, input.draws)
        case Failure(err) => Failure(err)
        case Success(next) => Success(Advanced(next))
      else Success(Advanced(shown))
    else if !e.firstDraw then
      match PollLoop(input.polls, 0, e.transitionStart, e.config.displayDuration)
      case StillPolling(_) => Success(Polling)
      case Exited(reason, at, _) =>
        var ready := if reason == ByReload then Reload(e, w, input.draws) else Success(e);
        match ready
        case Failure(err) => Failure(err)
        case Success(prepared) => Success(Advanced(StartTransition(prepared, input.polls[at].now)))
    else Success(Advanced(e.(firstDraw := false)))
  }

  /** The engine before the first transition is prepared: the listed
      catalogue, no program, no images, not animating, the display clock
      started at `now`, and the first frame still to draw. */
  function Initial(screen: Screen, config: Config, paths: seq<string>, now: int): (e: Engine)
    ensures e.screen == screen && e.config == config && e.paths == paths
    ensures e.shader.None? && e.uniforms == map[] && e.textures.NoTextures?
    ensures !e.animating && e.transitionStart == now && e.firstDraw
  {
    Engine(screen, config, paths, None, map[], NoTextures, false, now, 0, true)
  }

  /** Start-up of the window's loop: list the catalogue and prepare the first
      transition; the display clock starts at construction time `now`. */
  function Boot(screen: Screen, config: Config, w: World, now: int, d: Draws): (r: Result<Engine, EngineError>)
    requires screen.height > 0
    requires config.transitions == [] ==> d.effectKey in w.registry
    ensures var ps := LoadPaths(config.directory, w.listings, w.images);
            && (ps.Failure? ==> r == Failure(CatalogueFailed(ps.error)))
            && (ps.Success? ==>
                  r == SetupTransition(Initial(screen, config, ps.value, now), w, d))
    ensures r.Success? ==> !r.value.animating && r.value.firstDraw && r.value.transitionStart == now
    ensures r.Success? ==> r.value.config == config
                           && LoadPaths(config.directory, w.listings, w.images) == Success(r.value.paths)
    ensures r.Success? && WellFormedWorld(w) && config.directory != "" ==> Valid(r.value, w)
  {
    match LoadPaths(config.directory, w.listings, w.images)
    case Failure(err) => Failure(CatalogueFailed(err))
    case Success(paths) =>
      SetupTransition(Initial(screen, config, paths, now), w, d)
  }

  /** Every pass of the main loop keeps the engine valid. */
  lemma FramePreservesValid(e: Engine, w: World, input: FrameInput)
    requires Valid(e, w) && WellFormedWorld(w)
    requires input.draws.effectKey in w.registry
    ensures var r := Frame(e, w, input);
            r.Success? && r.value.Advanced? ==> Valid(r.value.engine, w)
  {
    var r := Frame(e, w, input);
    if r.Success? && r.value.Advanced? && !e.animating && !e.firstDraw {
      var p := PollLoop(input.polls, 0, e.transitionStart, e.config.displayDuration);
      if p.Exited? && p.reason == ByReload {
        var prepared := Reload(e, w, input.draws).value;
        var c := LoadConfig(e.config, w.files, true, w.existing).value;
        assert prepared.config == c;
        assert prepared.paths == ValidImages(w.listings[c.directory], w.images);
      }
    }
  }

  /** Passes of the main loop one after another, stopping at the first error.
      A pass that is still polling leaves the engine as it is: the poll loop
      keeps no state of its own, so the next input continues it. */
  function Run(e: Engine, w: World, inputs: seq<FrameInput>): (r: Result<Engine, EngineError>)
    requires Valid(e, w) && WellFormedWorld(w)
    requires forall i :: 0 <= i < |inputs| ==> inputs[i].draws.effectKey in w.registry
    ensures r.Success? ==> Valid(r.value, w)
    decreases |inputs|
  {
    if inputs == [] then Success(e)
    else
      FramePreservesValid(e, w, inputs[0]);
      match Frame(e, w, inputs[0])
      case Failure(err) => Failure(err)
      case Success(Polling) => Run(e, w, inputs[1..])
      case Success(Advanced(next)) => Run(next, w, inputs[1..])
  }

  /** Running two stretches of passes one after the other is running them
      together: an error in the first stops the run there, with that error. */
  lemma {:induction false} RunSplits(e: Engine, w: World, a: seq<FrameInput>, b: seq<FrameInput>)
    requires Valid(e, w) && WellFormedWorld(w)
    requires forall i :: 0 <= i < |a| ==> a[i].draws.effectKey in w.registry
    requires forall i :: 0 <= i < |b| ==> b[i].draws.effectKey in w.registry
    ensures Run(e, w, a + b) == match Run(e, w, a)
                                case Failure(err) => Failure(err)
                                case Success(m) => Run(m, w, b)
    decreases |a|
  {
    if a == [] {
      assert a + b == b;
    } else {
      assert (a + b)[0] == a[0];
      assert (a + b)[1..] == a[1..] + b;
      FramePreservesValid(e, w, a[0]);
      match Frame(e, w, a[0])
      case Failure(_) =>
      case Success(Polling) => RunSplits(e, w, a[1..], b);
      case Success(Advanced(next)) => RunSplits(next, w, a[1..], b);
    }
  }

  /** The run fails exactly at the first pass whose `Frame` fails: after the
      passes before it succeed, it ends with that pass's error; and a failed
      run has such a pass. */
  lemma {:induction false} RunFailsAtFirstFailingPass(e: Engine, w: World, inputs: seq<FrameInput>)
    requires Valid(e, w) && WellFormedWorld(w)
    requires forall i :: 0 <= i < |inputs| ==> inputs[i].draws.effectKey in w.registry
    ensures forall k :: 0 <= k < |inputs| && Run(e, w, inputs[..k]).Success?
                        && Frame(Run(e, w, inputs[..k]).value, w, inputs[k]).Failure? ==>
              Run(e, w, inputs) == Failure(Frame(Run(e, w, inputs[..k]).value, w, inputs[k]).error)
    ensures Run(e, w, inputs).Failure? ==>
              exists k :: 0 <= k < |inputs| && Run(e, w, inputs[..k]).Success?
                          && Frame(Run(e, w, inputs[..k]).value, w, inputs[k]) == Failure(Run(e, w, inputs).error)
  {
    forall k | 0 <= k < |inputs| && Run(e, w, inputs[..k]).Success?
               && Frame(Run(e, w, inputs[..k]).value, w, inputs[k]).Failure?
      ensures Run(e, w, inputs) == Failure(Frame(Run(e, w, inputs[..k]).value, w, inputs[k]).error)
    {
      FirstFailingPassAt(e, w, inputs, k);
    }
    if Run(e, w, inputs).Failure? {
      var k := FailingPass(e, w, inputs);
    }
  }

  lemma {:induction false} FirstFailingPassAt(e: Engine, w: World, inputs: seq<FrameInput>, k: nat)
    requires Valid(e, w) && WellFormedWorld(w)
    requires forall i :: 0 <= i < |inputs| ==> inputs[i].draws.effectKey in w.registry
    requires k < |inputs| && Run(e, w, inputs[..k]).Success?
    requires Frame(Run(e, w, inputs[..k]).value, w, inputs[k]).Failure?
    ensures Run(e, w, inputs) == Failure(Frame(Run(e, w, inputs[..k]).value, w, inputs[k]).error)
  {
    var m := Run(e, w, inputs[..k]).value;
    var rest := inputs[k..];
    assert inputs == inputs[..k] + rest;
    RunSplits(e, w, inputs[..k], rest);
    assert rest[0] == inputs[k];
    RunStopsAtFailingHead(m, w, rest);
  }

  lemma RunStopsAtFailingHead(e: Engine, w: World, inputs: seq<FrameInput>)
    requires Valid(e, w) && WellFormedWorld(w)
    requires forall i :: 0 <= i < |inputs| ==> inputs[i].draws.effectKey in w.registry
    requires |inputs| > 0 && Frame(e, w, inputs[0]).Failure?
    ensures Run(e, w, inputs) == Failure(Frame(e, w, inputs[0]).error)
  {
  }

  /** The index of the pass a failed run stopped at. */
  lemma {:induction false} FailingPass(e: Engine, w: World, inputs: seq<FrameInput>) returns (k: nat)
    requires Valid(e, w) && WellFormedWorld(w)
    requires forall i :: 0 <= i < |inputs| ==> inputs[i].draws.effectKey in w.registry
    requires Run(e, w, inputs).Failure?
    ensures k < |inputs| && Run(e, w, inputs[..k]).Success?
    ensures Frame(Run(e, w, inputs[..k]).value, w, inputs[k]) == Failure(Run(e, w, inputs).error)
    decreases |inputs|
  {
    assert inputs[..0] == [];
    FramePreservesValid(e, w, inputs[0]);
    match Frame(e, w, inputs[0])
    case Failure(_) => k := 0;
    case Success(step) =>
      var next := if step.Polling? then e else step.engine;
      var j := FailingPass(next, w, inputs[1..]);
      k := j + 1;
      assert inputs[..k] == [inputs[0]] + inputs[1..][..j];
      RunSplits(e, w, [inputs[0]], inputs[1..][..j]);
      assert [inputs[0]][1..] == [];
  }

  /** A finished animation stops, restarts the display clock and prepares the
      next transition: the image that was shown as "to" becomes current, so the
      visible image changes, and a different image is pre-loaded. */
  lemma AnimationCompletes(e: Engine, w: World, input: FrameInput)
    requires Valid(e, w) && input.draws.effectKey in w.registry
    requires e.animating && e.config.transitionDuration >= 0 && input.now >= e.transitionEnd
    ensures var r := Frame(e, w, input);
            r.Success? ==>
              && r.value.Advanced?
              && !r.value.engine.animating
              && r.value.engine.transitionStart == input.now
              && r.value.engine.textures.current == e.textures.next
              && r.value.engine.textures.current != e.textures.current
              && r.value.engine.textures.next != r.value.engine.textures.current
    ensures Frame(e, w, input).Success? <==>
              SetupTransition(e.(animating := false, transitionStart := input.now), w, input.draws).Success?
    ensures Frame(e, w, input) == match SetupTransition(e.(animating := false, transitionStart := input.now), w, input.draws)
                                  case Failure(err) => Failure(err)
                                  case Success(n) => Success(Advanced(n))
  {
    assert Progress(input.now - e.transitionStart, e.transitionEnd - e.transitionStart) == 1.0;
  }

  /** Before its end an animation only advances `progress`, by the elapsed
      fraction of the transition, and keeps animating. */
  lemma AnimationContinues(e: Engine, w: World, input: FrameInput)
    requires Valid(e, w) && input.draws.effectKey in w.registry
    requires e.animating && e.transitionStart <= input.now < e.transitionEnd
    ensures var t := (input.now - e.transitionStart) as real / e.config.transitionDuration as real;
            && 0.0 <= t < 1.0
            && Frame(e, w, input) == Success(Advanced(e.(uniforms := e.uniforms["progress" := Float(t)])))
  {
  }

  /** Commands arriving while animating are not looked at: the pass does not
      depend on the poll results at all. */
  lemma AnimationIgnoresCommands(e: Engine, w: World, input: FrameInput, polls: seq<PollEvent>)
    requires e.screen.height > 0 && |e.paths| > 0 && input.draws.effectKey in w.registry
    requires e.animating
    ensures Frame(e, w, input) == Frame(e, w, input.(polls := polls))
  {
  }

  /** A `Next` command, and equally the display timeout, starts the transition
      that is already prepared, at the time the loop was left; nothing else
      changes. */
  lemma NextOrTimeoutStartsPreparedTransition(e: Engine, w: World, input: FrameInput)
    requires Valid(e, w) && input.draws.effectKey in w.registry
    requires !e.animating && !e.firstDraw
    requires PollLoop(input.polls, 0, e.transitionStart, e.config.displayDuration).Exited?
    requires PollLoop(input.polls, 0, e.transitionStart, e.config.displayDuration).reason != ByReload
    ensures var at := PollLoop(input.polls, 0, e.transitionStart, e.config.displayDuration).at;
            && input.polls[at].msg != ReloadConfig
            && (input.polls[at].msg != NextWallpaper ==>
                  input.polls[at].now - e.transitionStart >= e.config.displayDuration)
            && Frame(e, w, input) == Success(Advanced(StartTransition(e, input.polls[at].now)))
  {
  }

  /** A `Reload` command reloads the config with the file winning, rebuilds the
      catalogue from the reloaded directory, prepares a transition from it and
      starts it with the reloaded duration. */
  lemma ReloadStartsFreshTransition(e: Engine, w: World, input: FrameInput)
    requires Valid(e, w) && input.draws.effectKey in w.registry
    requires !e.animating && !e.firstDraw
    requires PollLoop(input.polls, 0, e.transitionStart, e.config.displayDuration).Exited?
    requires PollLoop(input.polls, 0, e.transitionStart, e.config.displayDuration).reason == ByReload
    ensures var r := Frame(e, w, input);
            r.Success? ==>
              var c := LoadConfig(e.config, w.files, true, w.existing);
              && c.Success?
              && r.value.Advanced?
              && r.value.engine.config == c.value
              && LoadPaths(c.value.directory, w.listings, w.images) == Success(r.value.engine.paths)
              && r.value.engine.textures.next in r.value.engine.paths
              && r.value.engine.animating
              && r.value.engine.transitionEnd == r.value.engine.transitionStart + c.value.transitionDuration
    ensures var at := PollLoop(input.polls, 0, e.transitionStart, e.config.displayDuration).at;
            Frame(e, w, input) == match Reload(e, w, input.draws)
                                  case Failure(err) => Failure(err)
                                  case Success(p) => Success(Advanced(StartTransition(p, input.polls[at].now)))
  {
  }

  /** With a display duration of zero, the first pass of the poll loop already
      leaves it, whatever message (or none) it finds. */
  lemma ZeroDisplayLeavesAtOnce(e: Engine, w: World, input: FrameInput)
    requires Valid(e, w) && input.draws.effectKey in w.registry
    requires !e.animating && !e.firstDraw && e.config.displayDuration == 0
    requires |input.polls| > 0 && input.polls[0].now >= e.transitionStart
    ensures PollLoop(input.polls, 0, e.transitionStart, e.config.displayDuration).Exited?
    ensures PollLoop(input.polls, 0, e.transitionStart, e.config.displayDuration).at == 0
    ensures Frame(e, w, input).Success? ==>
              Frame(e, w, input).value.Advanced? && Frame(e, w, input).value.engine.animating
  {
  }
}

=== FILE: shaders.dfy ===
/** Shader side of a transition: choosing an effect, composing its fragment
    source from the fixed template, the fallback to `fade`, and the table of
    effect-specific uniforms.

    The effect registry is a map from effect name to the GLSL body of its
    `transition` function. Whether a program builds is not decided by the
    source text here: the program handle is non-zero unless the GL driver
    refuses to create it, so a build's outcome is a parameter (`unlinkable`
    names the effects whose program handle comes back zero). */
module Shaders {
  import opened Wrappers
  import opened Configuration

  const FadeName := "fade"

  /** The fragment-shader template up to its single `%s` directive. */
  const TemplatePrefix :=
    "#version 330 core\n" +
    "in vec2 uv;\n" +
    "out vec4 FragColor;\n" +
    "uniform sampler2D from;\n" +
    "uniform sampler2D to;\n" +
    "uniform float progress;\n" +
    "uniform float ratio;\n" +
    "\n" +
    "vec4 getFromColor(vec2 _uv) {\n" +
    "  return texture(from, _uv);\n" +
    "}\n" +
    "\n" +
    "vec4 getToColor(vec2 _uv) {\n" +
    "  return texture(to, _uv);\n" +
    "}\n" +
    "\n" +
    "\n"

  /** The fragment-shader template after its `%s` directive. */
  const TemplateSuffix :=
    "\n" +
    "void main() {\n" +
    "  FragColor = transition(uv);\n" +
    "}\n"

  const FragmentTemplate := TemplatePrefix + "%s" + TemplateSuffix

  /** The fragment source for an effect body: the template with its single
      `%s` directive replaced by the body. The program formats it into a buffer
      of `|FragmentTemplate| + |body|` characters, one of which holds the
      terminator; the result always fits, so nothing is cut off. */
  function Compose(body: string): (frag: string)
    ensures |frag| == |FragmentTemplate| + |body| - 2
    ensures frag[..|TemplatePrefix|] == TemplatePrefix
    ensures frag[|frag| - |TemplateSuffix|..] == TemplateSuffix
  {
    TemplatePrefix + body + TemplateSuffix
  }

  /** The effect body can be read back out of a composed fragment, so distinct
      effect bodies give distinct fragment sources. */
  lemma ComposeRecoversBody(body: string, other: string)
    ensures var frag := Compose(body);
            frag[|TemplatePrefix|..|frag| - |TemplateSuffix|] == body
    ensures Compose(body) == Compose(other) ==> body == other
  {
    var frag := Compose(body);
    assert frag[|TemplatePrefix|..|frag| - |TemplateSuffix|] == body;
    var frag' := Compose(other);
    if frag == frag' {
      assert frag'[|TemplatePrefix|..|frag'| - |TemplateSuffix|] == other;
    }
  }

  /** The effect chosen for a transition: a sample of the enabled list when it
      is non-empty, otherwise `key`, a sample of the whole registry. */
  function ChooseEffect(enabled: seq<string>, registry: map<string, string>, index: nat, key: string): (name: string)
    requires enabled == [] ==> key in registry
    ensures enabled != [] ==> name in enabled
    ensures enabled == [] ==> name in registry
  {
    if enabled != [] then enabled[index % |enabled|] else key
  }

  /** Every enabled effect, and with an empty list every registered effect, can
      be chosen: the choice ranges over exactly that domain. */
  lemma EveryEffectChoosable(enabled: seq<string>, registry: map<string, string>, name: string)
    requires if enabled != [] then name in enabled else name in registry
    ensures exists index: nat, key: string
              :: (enabled == [] ==> key in registry) && ChooseEffect(enabled, registry, index, key) == name
  {
    if enabled != [] {
      var i :| 0 <= i < |enabled| && enabled[i] == name;
      assert i % |enabled| == i;
      assert ChooseEffect(enabled, registry, i, name) == name;
    } else {
      assert ChooseEffect(enabled, registry, 0, name) == name;
    }
  }

  /** A built shader program: the effect it implements, its fragment source,
      whether its program handle is non-zero, and how many builds it took. */
  datatype Shader = Shader(effect: string, fragment: string, linked: bool, attempts: nat)

  datatype ShaderError = FadeMissing

  /** `create_shader`: look the effect up (an unknown name becomes `fade`), compose
      and build it, and rebuild once with `fade` when a non-`fade` program
      comes back with handle zero. A missing `fade` is fatal; a `fade` program
      with handle zero is kept as it is. */
  function CreateShader(name: string, registry: map<string, string>, unlinkable: set<string>)
    : (r: Result<Shader, ShaderError>)
    ensures r.Failure? <==>
              FadeName !in registry && (name !in registry || name == FadeName || name in unlinkable)
    ensures r.Success? ==> (r.value.effect in registry
                            && r.value.fragment == Compose(registry[r.value.effect]))
    ensures r.Success? ==> (r.value.effect == name <==>
                              name in registry && (name == FadeName || name !in unlinkable))
    ensures r.Success? && r.value.effect != name ==> r.value.effect == FadeName
    ensures r.Success? ==> r.value.linked == (r.value.effect !in unlinkable)
    ensures r.Success? && !r.value.linked ==> r.value.effect == FadeName
    ensures r.Success? ==> 1 <= r.value.attempts <= 2
    decreases if name == FadeName then 0 else 1
  {
    var effect := if name in registry then name else FadeName;
    if effect !in registry then Failure(FadeMissing)
    else
      var fragment := Compose(registry[effect]);
      var linked := effect !in unlinkable;
      if !linked && effect != FadeName then
        match CreateShader(FadeName, registry, unlinkable)
        case Failure(e) => Failure(e)
        case Success(s) => Success(s.(attempts := s.attempts + 1))
      else Success(Shader(effect, fragment, linked, 1))
  }

  /** Requesting an unknown effect binds `fade` when the registry has it. */
  lemma UnknownEffectFallsBack(name: string, registry: map<string, string>, unlinkable: set<string>)
    requires name !in registry && FadeName in registry
    ensures CreateShader(name, registry, unlinkable).Success?
    ensures CreateShader(name, registry, unlinkable).value.effect == FadeName
    ensures CreateShader(name, registry, unlinkable).value.fragment == Compose(registry[FadeName])
  {
  }

  datatype UniformValue =
    | Int(i: int)
    | Float(x: real)
    | Vec2(x: real, y: real)
    | Vec4(color: Rgba)
      /** A single-precision quotient `num / den` left unevaluated; `den` may be
          zero, where the float division gives an infinity. */
    | FloatQuotient(num: real, den: int)

  datatype Uniform = Uniform(name: string, value: UniformValue)

  /** The random draws `set_uniforms` consumes. The program draws the 2-D
      direction from [-1, 1], the x component from [0, 1] and the integer from
      {0, 1}; `InRange` states those ranges, and the model takes any draws,
      since no property here depends on them. */
  datatype DirectionDraws = DirectionDraws(dx: real, dy: real, ex: real, melt: int) {
    predicate InRange() {
      -1.0 <= dx <= 1.0 && -1.0 <= dy <= 1.0 && 0.0 <= ex <= 1.0 && 0 <= melt <= 1
    }
  }

  /** `set_uniforms`: the effect-specific uniforms, in the order they are set.
      `ratio` is the integer quotient of the screen width by its height. */
  function AuxUniforms(effect: string, bg: Rgba, ratio: int, draws: DirectionDraws): (us: seq<Uniform>)
    ensures forall u :: u in us && u.name == "bgcolor" ==> u.value == Vec4(bg)
    ensures forall u :: u in us && u.name == "size" ==>
              if effect == "gridflip" then u.value == Vec2((ratio * 4) as real, 4.0)
              else u.value == Vec2((ratio * 10) as real, 10.0)
    ensures forall u :: u in us && u.name == "dividerWidth" ==> u.value == FloatQuotient(0.05, ratio)
    ensures effect in {"squareswire", "directionalwarp", "directionalwipe"} ==>
              forall u :: u in us && u.name == "direction" ==> u.value == Vec2(draws.dx, draws.dy)
    ensures effect in {"directional_easing", "directional"} ==>
              forall u :: u in us && u.name == "direction" ==>
                u.value == Vec2(draws.ex, if draws.ex == 1.0 then 0.0 else 1.0)
    ensures effect == "luminance_melt" ==>
              forall u :: u in us && u.name == "direction" ==> u.value == Int(draws.melt)
  {
    var bgcolor := if effect == "circlecrop" || effect == "gridflip"
                   then [Uniform("bgcolor", Vec4(bg))] else [];
    var grid := if effect == "gridflip"
                then [Uniform("size", Vec2((ratio * 4) as real, 4.0)), Uniform("dividerWidth", FloatQuotient(0.05, ratio))]
                else [];
    var squares := if effect == "randomsquares" || effect == "squareswire"
                   then [Uniform("size", Vec2((ratio * 10) as real, 10.0))] else [];
    var wipe := if effect == "squareswire" || effect == "directionalwarp" || effect == "directionalwipe"
                then [Uniform("direction", Vec2(draws.dx, draws.dy))] else [];
    var corner := if effect == "directional_easing" || effect == "directional"
                  then [Uniform("direction", Vec2(draws.ex, if draws.ex == 1.0 then 0.0 else 1.0))] else [];
    var melt := if effect == "luminance_melt" then [Uniform("direction", Int(draws.melt))] else [];
    bgcolor + grid + squares + wipe + corner + melt
  }

  /** With draws from the program's ranges, every `direction` uniform lies in
      the unit square [-1, 1]², or is 0 or 1 for luminance_melt. */
  lemma DirectionsInRange(effect: string, bg: Rgba, ratio: int, draws: DirectionDraws)
    requires draws.InRange()
    ensures forall u :: u in AuxUniforms(effect, bg, ratio, draws) && u.name == "direction" ==>
              && (u.value.Vec2? ==> -1.0 <= u.value.x <= 1.0 && -1.0 <= u.value.y <= 1.0)
              && (u.value.Int? ==> 0 <= u.value.i <= 1)
              && (u.value.Vec2? || u.value.Int?)
  {
  }

  /** The declarative reading of the same table: which uniform names each effect
      receives. */
  const AuxTable: map<string, set<string>> := map[
    "circlecrop" := {"bgcolor"},
    "gridflip" := {"bgcolor", "size", "dividerWidth"},
    "randomsquares" := {"size"},
    "squareswire" := {"size", "direction"},
    "directionalwarp" := {"direction"},
    "directionalwipe" := {"direction"},
    "directional_easing" := {"direction"},
    "directional" := {"direction"},
    "luminance_melt" := {"direction"}]

  function UniformNames(us: seq<Uniform>): (names: set<string>) {
    set u | u in us :: u.name
  }

  /** The effect-specific uniforms never touch the base uniforms `ratio` and
      `progress`, nor the sampler units `from` and `to`. */
  lemma AuxUniformsAreAuxiliary(effect: string, bg: Rgba, ratio: int, draws: DirectionDraws)
    ensures UniformNames(AuxUniforms(effect, bg, ratio, draws)) <= {"bgcolor", "size", "dividerWidth", "direction"}
  {
  }

  /** No uniform name occurs twice in the list. */
  predicate UniqueNames(us: seq<Uniform>) {
    forall i, j :: 0 <= i < j < |us| ==> us[i].name != us[j].name
  }

  /** No effect sets the same uniform twice, so the order of the calls does not
      matter for the values the program ends up with. */
  lemma AuxUniformsUnique(effect: string, bg: Rgba, ratio: int, draws: DirectionDraws)
    ensures UniqueNames(AuxUniforms(effect, bg, ratio, draws))
  {
    var us := AuxUniforms(effect, bg, ratio, draws);
    if effect == "gridflip" {
      assert us == [Uniform("bgcolor", Vec4(bg)), Uniform("size", Vec2((ratio * 4) as real, 4.0)),
                    Uniform("dividerWidth", FloatQuotient(0.05, ratio))];
    } else if effect == "squareswire" {
      assert us == [Uniform("size", Vec2((ratio * 10) as real, 10.0)), Uniform("direction", Vec2(draws.dx, draws.dy))];
    } else {
      assert |us| <= 1;
    }
  }

  /** The chain of name comparisons sets exactly the uniforms the table lists,
      and nothing for an effect the table does not name. */
  lemma AuxUniformsMatchTable(effect: string, bg: Rgba, ratio: int, draws: DirectionDraws)
    ensures UniformNames(AuxUniforms(effect, bg, ratio, draws))
            == (if effect in AuxTable then AuxTable[effect] else {})
  {
    var us := AuxUniforms(effect, bg, ratio, draws);
    if effect !in AuxTable {
      assert us == [];
    } else {
      assert UniformNames(us) == AuxTable[effect];
    }
  }
}

=== FILE: wrappers.dfy ===
/** `Option` for a value the command line, the environment or the program's
    state may lack, and `Result` for an operation that throws in the program:
    the exception becomes the `Failure` value. `Result` supports `:-`. */
module Wrappers {

  datatype Option<+T> = None | Some(value: T) {

    /** The value, or `default` when there is none (an option's fallback). */
    function GetOr(default: T): T {
      match this
      case Some(v) => v
      case None => default
    }
  }

  datatype Result<+R, +E> = Success(value: R) | Failure(error: E) {

    predicate IsFailure() {
      Failure?
    }

    function PropagateFailure<U>(): Result<U, E>
      requires Failure?
    {
      Failure(error)
    }

    function Extract(): R
      requires Success?
    {
      value
    }
  }
}
